=== FILE: README.md ===
# sheriffwebsites in Dafny

A model of the core of `sheriffwebsites`, a Scrapy project that scrapes jail-roster JSON from
a Lighthouse-built sheriff's site and turns each booking into a validated `BookingItem`.

The model covers three parts.

- **Record coercion** (`sheriffwebsites/items.py`, module `Items`). pydantic is replaced by a
  static descriptor table. For each of the 18 fields, the table gives the single alias key the
  field is read from, its target kind and its annotation. The kinds are plain string, `Sex`
  code, `Race` code, datetime, US state, and ZIP pattern. Optionality is derived from the
  annotation through `allows_none`, as the wrap validator does.
  - `Coerce` is `BookingItem(**raw)`. When every field succeeds it builds the record.
    Otherwise it fails with a `ValidationError` that lists each failing field's key, as
    missing or invalid.
  - `FullName` and `MailingAddress` are the two computed string properties.
- **Helpers** (`validators.py`, `utils.py`; modules `Validators`, `Utils`).
  - `validate_state` looks the candidate up in an abstract table and returns that state's
    abbreviation.
  - `soft_validate` turns a handler's `ValidationError` into `None`.
  - `allows_none` works over a small annotation datatype.
  - `delist_maybe` unwraps a list to its first element.
- **The spider** (`sheriffwebsites/spiders/bookings.py`, module `Bookings`). Each callback
  is a pure function from a response to what it yields.
  - A response is either not text, or text whose body may or may not decode to a JSON tree.
  - `parse` yields one detail request per row of `"query"`.
  - `parse_booking` coerces element 0 of `"bookie"`.
  - Python generator semantics are kept: the requests yielded before a row raises are kept,
    alongside the exception.

Supporting modules:

- `Wrappers`: `Option` and `Result`.
- `JsonTree`: the JSON value.
- `Errors`: the Python exceptions the code can raise.
- `Text`: Python's `str.isspace`, `str.strip`, `str(int)` and `" ".join`.
- `Dates`: calendar timestamps, and the `MM/DD/YYYY` reading `convert_date` is expected to
  give.

Record-level properties are in `ItemProperties`. Properties of the spider that relate several
calls are in `SpiderProperties`.

Two external dependencies become parameters of the model (`Items.Env`):

- the datetime parser of pydantic, as a partial function that is shown only strings and
  numbers (pydantic rejects `null`, booleans, lists and dicts before parsing);
- `us.states.lookup`, as a finite map from candidate strings to a state with an `abbr`.

`Items.WithConvertDate` puts `convert_date` (`Dates.ConvertDate`) in front of pydantic's
parser, as the tests expect; see "## Findings".

### Behaviour worth knowing

- Field values are never trimmed: `"730  "` reaches the ZIP check unchanged. Only
  `mailing_address` strips, and only the joined string.
- Every `dt.datetime` field, `birth_date` included, is read by pydantic's parser, which takes
  RFC 3339 text or numbers. `validators.py` defines no `convert_date`, so a date of birth
  written `MM/DD/YYYY` fails the record.
- Each field is read only from its alias key. `populate_by_name` is off, so a raw record
  keyed by the canonical field names does not coerce.
- A missing alias key fails the record even for an optional field, because no field has a
  default.

## Model

| member | source | states |
|---|---|---|
| Items.ParseSex | sheriffwebsites/items.py:25-40 | A `Sex` code is accepted exactly when it is `"M"`, `"F"` or `"X"`, and the member found carries that code |
| Items.SexRoundTrip | sheriffwebsites/items.py:38-40 | Every `Sex` member is found again from its code |
| Items.ParseRace | sheriffwebsites/items.py:43-70 | A `Race` code is accepted exactly when it is one of `"A"`, `"B"`, `"H"`, `"M"`, `"I"`, `"O"`, `"W"`, and the member found carries that code |
| Items.RaceRoundTrip | sheriffwebsites/items.py:64-70 | Every `Race` member is found again from its code |
| Items.OptionalFields | sheriffwebsites/items.py:120-137 | Exactly `release_date`, `held_for`, `middle_name` and `zipcode` allow `None`; `state` does not, because its annotation is not a union |
| Items.AliasesDistinct | sheriffwebsites/items.py:120-137 | Distinct fields read distinct alias keys |
| Items.DescribeKinds | sheriffwebsites/items.py:120-137 | The three `dt.datetime` fields are exactly the date fields; `Sex`, `Race`, `State` and `ZipCode` each type exactly their one field |
| Items.Convert | sheriffwebsites/items.py:73-74 | Per target kind, when a value validates: any string; only the listed `Sex`/`Race` codes; a string or number the date parser accepts, never `null`, a bool, a list or a dict; a string the state lookup knows, turned into its abbreviation; a string starting with five digits, kept whole. An accepted `Sex`/`Race` code gives the member with that code. A failure is a validation error at the field's key |
| Items.ZipSearchSemantics | sheriffwebsites/items.py:74 | The ZIP constraint holds exactly when some prefix of the value is a whole ZIP code, five digits optionally followed by `-` and four digits |
| Items.Handler | sheriffwebsites/items.py:120-137 | The validator of a field's annotation: `null` is accepted as absent for an optional field; otherwise the value is kept exactly when its target type accepts it, as the type's conversion of it; a rejection is a validation error at the field's key |
| Items.WrapValidate | sheriffwebsites/items.py:177-197 | An optional field never fails: `""`, `null` and a value its type rejects make it absent, and any other value is kept as the type's conversion of it. A required field is kept as the type's conversion when its type accepts the value, and otherwise fails with a validation error at its key |
| Items.CoerceField | sheriffwebsites/items.py:177-197 | A field is missing exactly when its alias key is absent; only a required field can be invalid; only an optional field can be absent; a kept value has the field's type |
| Items.WithConvertDate | tests/test_validators.py:29-31 | The corrected date reading: text that `convert_date` reads gives that date, and every other value goes to pydantic's parser unchanged; the state table is kept |
| Items.WithConvertDateReadsDates | tests/test_validators.py:29-31 | With `convert_date` in front, every date `MM/DD/YYYY` can spell is read from its spelling |
| Dates.ConvertDate | tests/test_validators.py:29-31 | The reading of `convert_date` chosen here: a zero-padded two-digit month, two-digit day and four-digit year separated by `/`, naming a real calendar day, read at midnight; whatever it reads is spelled by the text |
| Dates.ConvertFormat | tests/test_validators.py:29-31 | Every date from year 1 to 9999 is read back from its `MM/DD/YYYY` spelling |
| Dates.ConvertDateExample | tests/test_validators.py:31 | `convert_date("09/06/1993")` is 6 September 1993 |
| Dates.FormatBirthDateExample | tests/test_items.py:30 | 1 January 1976 is spelled `01/01/1976`, the fixture's date of birth |
| Items.OptionalOutcome | sheriffwebsites/items.py:195-196 | A present optional field never fails. `""` and `null` become absent; an accepted value is kept; a rejected value becomes absent |
| Items.EmptyOptionalSkipsCoercer | sheriffwebsites/items.py:196 | An optional `""` is absent whatever coercer and lookup table are in force, so the coercer is not consulted |
| Items.RequiredOutcome | sheriffwebsites/items.py:197 | A present required field always goes to its coercer, `""` included: it is kept if accepted and is invalid otherwise |
| Items.FieldErrors | sheriffwebsites/items.py:177-197 | The error list is empty exactly when every field succeeds; it names each failing field's key with its error, and only those |
| Items.Coerce | sheriffwebsites/items.py:120-137 | The record is built exactly when every field succeeds, and then each field holds its coerced value. Otherwise a non-empty `ValidationError` reports every failing field and nothing else |
| Items.FullName | sheriffwebsites/items.py:161-163 | `full_name` is the `" ".join` of first, middle and last name, the middle name dropped when absent or empty; its length follows |
| Items.MailingAddress | sheriffwebsites/items.py:175 | `mailing_address` is the address lines with only leading and trailing whitespace removed, and has no surrounding whitespace itself |
| ItemProperties.CoerceSucceedsIff | sheriffwebsites/items.py:177-197 | A record is built exactly when every alias key is present and every required field's value validates; optional fields never decide |
| ItemProperties.MissingKeyRejects | sheriffwebsites/items.py:120-137 | A missing alias key fails the record, optional field or not, and is reported as missing |
| ItemProperties.RequiredFailureRejects | sheriffwebsites/items.py:197 | A required value the coercer rejects fails the record and is reported as invalid |
| ItemProperties.OptionalNeverDecides | sheriffwebsites/items.py:195-196 | Changing an optional field's value never changes whether the record is built |
| ItemProperties.RecordByFields | sheriffwebsites/items.py:120-137 | Two records with the same field values are equal |
| ItemProperties.SameOutcomesSameRecord | sheriffwebsites/items.py:177-197 | Raw records whose fields have the same outcomes coerce to the same result, errors included |
| ItemProperties.ExtraKeysIgnored | sheriffwebsites/items.py:120-137 | A key that is no field's alias, such as `FullName`, `Pic` or `county`, does not change the result |
| ItemProperties.ErrorsAgree | sheriffwebsites/items.py:177-197 | Equal per-field outcomes give equal error lists |
| ItemProperties.CoercedSexAndRace | sheriffwebsites/items.py:129-130 | A built record's `Sex` and `Race` come from raw values among the listed codes, and the record keeps the member with that code |
| ItemProperties.BadSexRejects | sheriffwebsites/items.py:129 | Any other `Sex` value fails the record with an invalid `Sex` |
| ItemProperties.BadRaceRejects | sheriffwebsites/items.py:130 | Any other `Race` value fails the record with an invalid `Race` |
| ItemProperties.CoercedState | sheriffwebsites/items.py:134 | A built record's state is the lookup's abbreviation for the raw `State` string, which the lookup must know |
| ItemProperties.CoercedZip | sheriffwebsites/items.py:135 | A built record has a ZIP exactly when the raw `Zip` is a string starting with five digits, and then holds it unchanged |
| ItemProperties.FullNameWithoutMiddle | sheriffwebsites/items.py:163 | Without a middle name, or with an empty one, `full_name` is first and last name with one space between |
| ItemProperties.MailingAddressWithoutZip | sheriffwebsites/items.py:175 | Without a ZIP the trailing space is stripped: the result is `address\ncity, state` |
| ItemProperties.MailingAddressWithZip | sheriffwebsites/items.py:175 | With a ZIP that does not end in whitespace, the address lines come back whole |
| ItemProperties.MailingAddressWithoutStreet | sheriffwebsites/items.py:175 | With an empty street the leading newline is stripped too |
| ItemProperties.FixtureIsSuch | tests/test_items.py:10-32 | The literal fixture map has the fixture's alias values; its environment knows Oklahoma, reads the booking date and, like pydantic's parser, reads no text containing `/` |
| ItemProperties.FixtureRejectedAsWritten | sheriffwebsites/items.py:137 | With pydantic's parser alone, the fixture does not coerce: its `"dob": "01/01/1976"` is reported invalid |
| ItemProperties.DobFails | sheriffwebsites/items.py:137 | A `dob` of `"01/01/1976"` fails any record under pydantic's parser, with an invalid `dob` |
| ItemProperties.CorrectedReadsFixtureDates | tests/test_validators.py:29-31 | With `convert_date` in front of pydantic's parser, the booking date is still read and the date of birth is 1 January 1976 |
| ItemProperties.FixtureFieldsSucceed | tests/test_items.py:10-32 | In an environment that reads both fixture dates, every field of the fixture has a successful outcome |
| ItemProperties.FixtureBuilds | tests/test_items.py:10-32 | In an environment that reads both fixture dates, the fixture coerces with the values below and birth date 1 January 1976 |
| ItemProperties.FixtureBooking | tests/test_items.py:10-32 | With `convert_date` reading the date of birth, the fixture coerces. Release date and held-for are absent, and the ZIP `"730  "` is dropped. The state is `OK`, sex male, race white; names and address are kept; the birth date is 1 January 1976 |
| ItemProperties.FixtureComputedFields | tests/test_items.py:40-49 | With `convert_date` reading the date of birth, the fixture's full name is `TESTFIRST TESTMIDDLE TESTLAST`, or `TESTFIRST TESTLAST` without the middle name, and its mailing address is `PO BOX 502\nEAKLY, OK` |
| Validators.ValidateState | sheriffwebsites/validators.py:13-34 | A known candidate gives its state's abbreviation; an unknown one raises `ValueError` with the message naming the candidate |
| Validators.ValidatedIsAbbreviation | sheriffwebsites/validators.py:31-33 | A successful result is the abbreviation of some entry of the lookup table |
| Validators.ValidateStateRaisesValueError | sheriffwebsites/validators.py:34 | A failure is always a `ValueError` and happens only for unknown candidates |
| Validators.ValidateStateIdempotent | sheriffwebsites/validators.py:13-34 | When the lookup recognises every abbreviation it returns, as the same state, validating a validated state changes nothing |
| Validators.SoftValidate | sheriffwebsites/validators.py:37-42 | The handler's result when it returns; `None` when it raises `ValidationError`; any other exception propagates unchanged |
| Validators.SoftValidateAbsorbsOnlyValidation | sheriffwebsites/validators.py:39-42 | `soft_validate` never raises `ValidationError` and raises only what the handler raised. Its own `None` comes only from a failed handler; a handler's returned `None` stays wrapped until `Items.WrapValidate` merges the two |
| Utils.AllowsNone | sheriffwebsites/utils.py:10-26 | A union allows `None` exactly when its arguments contain `NoneType`; any other annotation exactly when it is `None` itself |
| Utils.OptionalAllowsNone | sheriffwebsites/utils.py:24-25 | `Optional[T]`, with `NoneType` first or last among the union's arguments, allows `None` for every `T` |
| Utils.UnionWithoutNoneType | sheriffwebsites/utils.py:25 | A union without `NoneType` does not allow `None` |
| Utils.AnnotatedHidesNone | sheriffwebsites/utils.py:24-26 | Wrapping an optional annotation in `Annotated[...]` makes it a non-union that does not allow `None` |
| Utils.DelistMaybe | sheriffwebsites/utils.py:29-48 | A non-empty list gives its first element, an empty list raises `IndexError`, and any other value comes back unchanged |
| Utils.DelistEitherShape | sheriffwebsites/utils.py:46-48 | A non-list value and the one-element list holding it unwrap to the same value |
| Utils.DelistKeepsHead | sheriffwebsites/utils.py:46-47 | Only the first element of a list survives |
| Text.Strip | sheriffwebsites/items.py:175 | The result has no surrounding whitespace and is the input with only leading and trailing whitespace removed |
| Text.StripIdempotent | sheriffwebsites/items.py:175 | Stripping twice is stripping once |
| Text.IsSpaceAscii | sheriffwebsites/items.py:175 | Among ASCII characters, `isspace` holds exactly for blank, tab, line feed, vertical tab, form feed, carriage return and the separators `\x1c` to `\x1f` |
| Text.StripPadded | sheriffwebsites/items.py:175 | Whitespace padding around a text with non-space ends is removed exactly |
| Text.NatTextRoundTrip | sheriffwebsites/spiders/bookings.py:64 | The decimal text of a natural number reads back as that number |
| Text.IntText | sheriffwebsites/spiders/bookings.py:64 | `str()` of an integer is a sign for negatives followed by digits that read back as its magnitude; the digits never start with `0` unless they are the single digit `0` |
| Text.NatTextCanonical | sheriffwebsites/spiders/bookings.py:64 | A run of digits without a leading zero is the decimal spelling of its value, so the unpadded spelling is unique |
| Bookings.GetBooking | sheriffwebsites/spiders/bookings.py:50-66 | The request goes to `parse_booking` for that booking; the URL text passed to `Request` is the `getbookie.php?bookingid=` prefix followed by the id's text (`PyStr`, Python's `str()` of a scalar, inserted by `Url`), and a natural-number id's suffix is unpadded digits that read back as the id |
| Bookings.Decode | sheriffwebsites/spiders/bookings.py:44-46 | A response yields its JSON exactly when it is text that decodes; otherwise it raises a `ValueError` |
| Bookings.QueryRows | sheriffwebsites/spiders/bookings.py:46-47 | The rows are the `"query"` array; a missing `"query"`, `""` or `{}` gives none. A response that is not a dict raises `AttributeError`; a non-empty string or dict, a number, a bool or `null` as `"query"` raises `TypeError` |
| Bookings.BookingIdOf | sheriffwebsites/spiders/bookings.py:48 | A row gives its `BookingID` exactly when it is a dict holding that key; otherwise `KeyError` or `TypeError` |
| Bookings.RequestsFor | sheriffwebsites/spiders/bookings.py:47-48 | One request per row, in row order, for that row's `BookingID`. The loop stops at the first row without one, raising that row's error, and ends without error exactly when every row yielded |
| Bookings.ParseRoster | sheriffwebsites/spiders/bookings.py:26-48 | Without JSON it yields nothing and raises `ValueError`. Without `"query"` it yields nothing. Otherwise every request goes to `parse_booking`, one per row, in order |
| Bookings.Subscript | sheriffwebsites/spiders/bookings.py:88 | A dict gives the key's value, and a missing key raises `KeyError` naming it |
| Bookings.First | sheriffwebsites/spiders/bookings.py:88 | Element 0 of a non-empty list; an empty list or string raises `IndexError` |
| Bookings.BookieRecord | sheriffwebsites/spiders/bookings.py:88-90 | A record is found exactly when the response's `"bookie"` is a non-empty list whose element 0 is a dict, and it is that dict. Undecodable JSON raises the decoding error; a non-dict response, a non-dict element 0, a non-empty string or a scalar raises `TypeError`; a missing `"bookie"` raises `KeyError('bookie')`, a dict `"bookie"` `KeyError(0)`, and an empty list or string `IndexError` |
| Bookings.ParseBookingResponse | sheriffwebsites/spiders/bookings.py:68-90 | At most one record. It yields a record exactly when it raises nothing, and the record is coercion's result for element 0 of `"bookie"`. Without JSON it raises `ValueError` |
| Bookings.Dispatch | sheriffwebsites/spiders/bookings.py:26-90 | A response to a roster request yields only further requests; one to a booking request yields at most one record |
| SpiderProperties.OneRequestPerRow | sheriffwebsites/spiders/bookings.py:47-48 | With every row named, the loop yields exactly one request per row, in order, and raises nothing |
| SpiderProperties.NamedRowFirst | sheriffwebsites/spiders/bookings.py:47-48 | A named first row contributes its request ahead of the rest of the rows' |
| SpiderProperties.RequestsForAppend | sheriffwebsites/spiders/bookings.py:47-48 | Rows are handled one after the other: the requests for `a + b` are those for `a` followed by those for `b` when no row of `a` raises |
| SpiderProperties.BadRowStops | sheriffwebsites/spiders/bookings.py:47-48 | The first row without a `BookingID` stops the loop: the rows before it keep their requests, and its error is raised |
| SpiderProperties.ParseRosterRows | sheriffwebsites/spiders/bookings.py:26-48 | `parse` of a roster with all rows named yields one `parse_booking` request per row, for that row's id |
| SpiderProperties.RosterExample | sheriffwebsites/spiders/bookings.py:47-66 | The roster `{"query": [{"BookingID": "13826"}]}` yields exactly one request, to `...getbookie.php?bookingid=13826` |
| SpiderProperties.BookieUrlInjective | sheriffwebsites/spiders/bookings.py:63-66 | Distinct string ids give distinct URL texts passed to `Request` |
| SpiderProperties.NumericIdUrl | sheriffwebsites/spiders/bookings.py:63-66 | The detail URL text of a numeric booking id `n` is the prefix followed by the decimal spelling of `n` |
| SpiderProperties.MissingBookieRaises | sheriffwebsites/spiders/bookings.py:88 | A booking response without `"bookie"` yields nothing and raises `KeyError('bookie')` |
| SpiderProperties.EmptyBookieRaises | sheriffwebsites/spiders/bookings.py:88 | An empty `"bookie"` list yields nothing and raises `IndexError` |
| SpiderProperties.BookieHeadCoerced | sheriffwebsites/spiders/bookings.py:88-90 | Only element 0 of `"bookie"` is read: it yields exactly its coerced record, or raises coercion's `ValidationError` |
| SpiderProperties.StartFollowsBookings | sheriffwebsites/spiders/bookings.py:22-48 | The crawl has one start request, to the roster and handled by `parse`; its response yields only `parse_booking` requests, each one `parse` yields |
| SpiderProperties.CrawlEndsAtRecords | sheriffwebsites/spiders/bookings.py:48-90 | Every request `parse` yields goes to `parse_booking`, which yields at most one record and never another request |

## Findings

| source | as written | input that shows it | evidently intended | confidence | as-written member | corrected member |
|---|---|---|---|---|---|---|
| sheriffwebsites/items.py:137 | `birth_date: dt.datetime` is read by pydantic's datetime parser alone, which takes RFC 3339 text or numbers | the test fixture's `"dob": "01/01/1976"` (tests/test_items.py:30): the record fails with an invalid `dob` | the date of birth read as `MM/DD/YYYY` by `convert_date`, which tests/test_validators.py:7 imports and line 31 expects but `validators.py` does not define, giving 1 January 1976 | medium, not executed | ItemProperties.FixtureRejectedAsWritten | Items.WithConvertDate |

## Left out

- `age` (`items.py:141-149`): it depends on the wall clock and on float division.
- Dates.DateTime: the model's timestamp keeps year, month, day, hour, minute and second only.
  pydantic's `datetime` also carries microseconds and a time zone (as in
  `"2025-01-22T02:44:00.5Z"`); `Env.parseDate` cannot return them, so two timestamps that
  differ only there are the same value in the model.
- Datetime parsing is pydantic's. It is the parameter `Env.parseDate`. Of its formats the
  model keeps only that it is shown strings and numbers, and that it reads no text containing
  `/` (`ItemProperties.PydanticDateText`), since RFC 3339 text never holds one.
- Items.WithConvertDate: `convert_date` is put in front of every date field, not only
  `birth_date`. The fixture's other dates are not `MM/DD/YYYY` text, so they are read as
  before.
- `us.states.lookup` is the finite map `Env.states`. Its contents are not modelled; the
  idempotence of state validation is proved only for tables that recognise their own
  abbreviations.
- Items.Convert: in the ZIP pattern (`Items.ZipMatches`) `\d` is taken as an ASCII digit. The
  regex engine pydantic uses also matches other Unicode decimal digits, so the model rejects
  some ZIPs the code accepts.
- JSON numbers are integers only; JSON floats are not modelled.
- JSON strings are Dafny strings, which hold only Unicode scalar values. `json.loads` can
  return a string holding a lone surrogate (from `"\ud800"`), which the model cannot
  represent.
- Dates.ConvertDate: `validators.py` does not define `convert_date`, and its test pins only
  `"09/06/1993"`. The model reads zero-padded `MM/DD/YYYY` only; one-digit months and days such
  as `9/6/1993`, which a `strptime("%m/%d/%Y")` reading would accept, are not read.
- Bookings.GetBooking: the URL text is stated only for scalar ids. The `str()` of a list or dict
  id (Python's `repr` form) is not modelled, and a float id is not representable.
- Bookings.GetBooking: Scrapy's `Request` stores the URL after w3lib's `safe_url_string`
  percent-escaping. The contract states the text passed to `Request`, not the stored URL.
- SpiderProperties.BookieUrlInjective: distinct ids give distinct texts passed to `Request`.
  After escaping they need not stay distinct: `a b` and `a%20b` both become `a%20b`.
- Validators.SoftValidateAbsorbsOnlyValidation: in Python, a handler that returns `None` and
  one that raises `ValidationError` both make `soft_validate` return `None`. The model keeps
  the two apart, and `Items.Flatten` merges them in the wrap validator.
- Bookings.First: on a non-empty string the contract says only that the result is a
  one-character string, not which character; `**` on it raises `TypeError` either way.
- The wrap validator's `"Field name not defined."` branch (`items.py:193-194`) cannot happen
  for declared fields, and `info`/`model_fields` reflection is replaced by the descriptor
  table.
- Items.Coerce: the error details carry the field's key and whether it was missing or
  invalid, not pydantic's message text or input value. Declaration order of the list is not
  stated in the contract.
- Logging (`self.logger.info`), Scrapy scheduling, concurrency, retries and the HTTP fetch
  itself: a response is an input of the callbacks.
- `sheriffwebsites/settings.py` (configuration constants), `noxfile.py` (build tooling),
  `sheriffwebsites/exceptions.py` (unused exception classes) and
  `sheriffwebsites/feedstorages/azure_blob.py` (an output sink over the Azure SDK) are not
  part of this model.

=== FILE: bookings.dfy ===
/** The booking spider (`sheriffwebsites/spiders/bookings.py`) as pure functions from a
    response to what its callbacks yield. Scheduling, concurrency and logging belong to
    Scrapy and are not modelled; a callback that raises keeps what it yielded before. */
module Bookings {
  import opened Wrappers
  import opened JsonTree
  import opened Errors
  import Text
  import Items

  /** A response as a callback sees it: a non-text response has no `json` method; a
      text response either decodes to a JSON tree or raises on `json()`. */
  datatype Response = Binary | TextResponse(decoded: Option<Json>)

  /** The spider method a request's response is handed to. */
  datatype Callback = Parse | ParseBooking

  /** The page a request asks for: the roster of current bookings, or one booking. */
  datatype Target = Roster | Bookie(bookingId: Json)

  datatype Request = Request(target: Target, callback: Callback)

  /** What one callback produced: everything it yielded, and the exception that ended it
      early, if any. */
  datatype Yielded<T> = Yielded(items: seq<T>, raised: Option<Exception>)

  const RosterUrl: string := "https://caddocountysheriff.com/dmxConnect/api/Booking/Read2.php?filter="
  const BookieUrl: string := "https://caddocountysheriff.com/dmxConnect/api/Booking/getbookie.php?bookingid="

  /** `start_urls` with Scrapy's default callback `parse`. */
  const StartRequests: seq<Request> := [Request(Roster, Parse)]

  /** Python's `str()` of a JSON scalar, as an f-string inserts it. */
  function PyStr(j: Json): string
    requires j.IsScalar()
  {
    match j
    case Null => "None"
    case Bool(b) => if b then "True" else "False"
    case Num(n) => Text.IntText(n)
    case Str(s) => s
  }

  /** The URL of a target; a booking id is inserted as `str()` renders it. */
  function Url(t: Target): string
    requires t.Bookie? ==> t.bookingId.IsScalar()
  {
    match t
    case Roster => RosterUrl
    case Bookie(id) => BookieUrl + PyStr(id)
  }

  /** `get_booking`: a request for one booking's detail page, handled by `parse_booking`. */
  function GetBooking(booking: Json): (r: Request)
    ensures r.callback == ParseBooking && r.target.Bookie? && r.target.bookingId == booking
    ensures booking.IsScalar() ==> |Url(r.target)| >= |BookieUrl| && Url(r.target)[..|BookieUrl|] == BookieUrl
    ensures booking.Str? ==> Url(r.target)[|BookieUrl|..] == booking.s
    ensures booking.Num? && booking.n >= 0 ==> Text.DigitsValue(Url(r.target)[|BookieUrl|..]) == booking.n
    ensures booking.Num? && booking.n >= 0 ==>
      var t := Url(r.target)[|BookieUrl|..];
      && |t| > 0 && (forall k :: 0 <= k < |t| ==> Text.IsDigit(t[k]))
      && (|t| > 1 ==> t[0] != '0')
  {
    var r := Request(Bookie(booking), ParseBooking);
    if booking.IsScalar() then
      var u := Url(r.target);
      assert u[..|BookieUrl|] == BookieUrl;
      assert u[|BookieUrl|..] == PyStr(booking);
      r
    else r
  }

  /** The JSON tree of a response: `ValueError` without a `json` method, and
      `JSONDecodeError` (itself a `ValueError`) when the body does not decode. */
  function Decode(resp: Response): (r: Result<Json, Exception>)
    ensures r.Failure? ==> r.error.IsValueError()
    ensures r.Success? <==> resp.TextResponse? && resp.decoded.Some?
    ensures r.Success? ==> r.value == resp.decoded.value
  {
    match resp
    case Binary => Failure(ValueError("Invalid response."))
    case TextResponse(None) => Failure(JsonDecodeError)
    case TextResponse(Some(j)) => Success(j)
  }

  /** The rows `parse` iterates: `bookings.get("query", [])`. Only a dict has `get`;
      a missing key gives no rows. Iterating a non-empty dict or string yields strings,
      and the first `row["BookingID"]` on a string raises `TypeError`, as iterating a
      number, boolean or `None` does at once. */
  function QueryRows(j: Json): (r: Result<seq<Json>, Exception>)
    ensures !j.Obj? ==> r == Failure(AttributeError)
    ensures j.Obj? && "query" !in j.fields ==> r == Success([])
    ensures j.Obj? && "query" in j.fields && j.fields["query"].Arr? ==> r == Success(j.fields["query"].elems)
    ensures j.Obj? && "query" in j.fields && j.fields["query"].Str? ==>
      r == (if j.fields["query"].s == "" then Success([]) else Failure(TypeError))
    ensures j.Obj? && "query" in j.fields && j.fields["query"].Obj? ==>
      r == (if j.fields["query"].fields == map[] then Success([]) else Failure(TypeError))
    ensures j.Obj? && "query" in j.fields && j.fields["query"].IsScalar() && !j.fields["query"].Str? ==>
      r == Failure(TypeError)
    ensures r.Success? ==> j.Obj? && ("query" !in j.fields || j.fields["query"].Arr? || r.value == [])
  {
    match j
    case Obj(m) =>
      if "query" !in m then Success([])
      else
        (match m["query"]
         case Arr(rows) => Success(rows)
         case Obj(d) => if d == map[] then Success([]) else Failure(TypeError)
         case Str(s) => if s == "" then Success([]) else Failure(TypeError)
         case _ => Failure(TypeError))
    case _ => Failure(AttributeError)
  }

  /** A row that names a booking: a dict with a `BookingID` key. */
  predicate HasBookingId(row: Json) {
    row.Obj? && "BookingID" in row.fields
  }

  /** `row["BookingID"]`: `KeyError` on a dict without the key, `TypeError` on anything
      that is not a dict. */
  function BookingIdOf(row: Json): (r: Result<Json, Exception>)
    ensures r.Success? <==> HasBookingId(row)
    ensures r.Success? ==> r.value == row.fields["BookingID"]
    ensures row.Obj? && !HasBookingId(row) ==> r == Failure(KeyError(Str("BookingID")))
    ensures !row.Obj? ==> r == Failure(TypeError)
  {
    match row
    case Obj(m) => if "BookingID" in m then Success(m["BookingID"]) else Failure(KeyError(Str("BookingID")))
    case _ => Failure(TypeError)
  }

  /** The loop of `parse` over the rows: one request per row, in row order, until a row
      without a booking id raises. */
  function RequestsFor(rows: seq<Json>): (r: Yielded<Request>)
    ensures |r.items| <= |rows|
    ensures forall i :: 0 <= i < |r.items| ==>
      HasBookingId(rows[i]) && r.items[i] == GetBooking(rows[i].fields["BookingID"])
    ensures r.raised.None? <==> |r.items| == |rows|
    ensures r.raised.Some? ==>
      !HasBookingId(rows[|r.items|]) && BookingIdOf(rows[|r.items|]) == Failure(r.raised.value)
  {
    if |rows| == 0 then Yielded([], None)
    else
      match BookingIdOf(rows[0])
      case Failure(e) => Yielded([], Some(e))
      case Success(id) =>
        var rest := RequestsFor(rows[1..]);
        Yielded([GetBooking(id)] + rest.items, rest.raised)
  }

  /** `parse`: the roster response becomes one booking request per row of its `query`
      array, in order; a response without JSON yields nothing and raises a
      `ValueError`, and a roster without `query` yields nothing. */
  function ParseRoster(resp: Response): (r: Yielded<Request>)
    ensures Decode(resp).Failure? ==> r.items == [] && r.raised.Some? && r.raised.value.IsValueError()
    ensures resp == TextResponse(Some(Obj(map[]))) ==> r == Yielded([], None)
    ensures forall i :: 0 <= i < |r.items| ==> r.items[i].callback == ParseBooking
    ensures resp.TextResponse? && resp.decoded.Some? && resp.decoded.value.Obj? && "query" !in resp.decoded.value.fields
      ==> r == Yielded([], None)
    ensures (resp.TextResponse? && resp.decoded.Some? && resp.decoded.value.Obj? && "query" in resp.decoded.value.fields
             && resp.decoded.value.fields["query"].Arr?) ==>
        var rows := resp.decoded.value.fields["query"].elems;
        && |r.items| <= |rows|
        && (forall i :: 0 <= i < |r.items| ==> HasBookingId(rows[i]) && r.items[i] == GetBooking(rows[i].fields["BookingID"]))
        && (r.raised.None? <==> |r.items| == |rows|)
  {
    match Decode(resp)
    case Failure(e) => Yielded([], Some(e))
    case Success(j) =>
      match QueryRows(j)
      case Failure(e) => Yielded([], Some(e))
      case Success(rows) => RequestsFor(rows)
  }

  /** `response.json()["bookie"][0]`, then the `**` unpacking into keyword arguments. */
  function BookieRecord(resp: Response): (r: Result<map<string, Json>, Exception>)
    ensures r.Success? ==>
      && resp.TextResponse? && resp.decoded.Some? && resp.decoded.value.Obj?
      && "bookie" in resp.decoded.value.fields
      && resp.decoded.value.fields["bookie"].Arr?
      && |resp.decoded.value.fields["bookie"].elems| > 0
      && resp.decoded.value.fields["bookie"].elems[0] == Obj(r.value)
    ensures Decode(resp).Failure? ==> r == Failure(Decode(resp).error)
    ensures Decode(resp).Success? && !Decode(resp).value.Obj? ==> r == Failure(TypeError)
    ensures Decode(resp).Success? && Decode(resp).value.Obj? ==>
      var m := Decode(resp).value.fields;
      && ("bookie" !in m ==> r == Failure(KeyError(Str("bookie"))))
      && ("bookie" in m && m["bookie"].Arr? ==> var xs := m["bookie"].elems;
           && (|xs| == 0 ==> r == Failure(IndexError))
           && (|xs| > 0 && xs[0].Obj? ==> r == Success(xs[0].fields))
           && (|xs| > 0 && !xs[0].Obj? ==> r == Failure(TypeError)))
      && ("bookie" in m && m["bookie"].Str? ==>
           r == Failure(if m["bookie"].s == "" then IndexError else TypeError))
      && ("bookie" in m && m["bookie"].Obj? ==> r == Failure(KeyError(Num(0))))
      && ("bookie" in m && m["bookie"].IsScalar() && !m["bookie"].Str? ==> r == Failure(TypeError))
  {
    var j :- Decode(resp);
    var bookie :- Subscript(j, "bookie");
    var person :- First(bookie);
    match person
    case Obj(m) => Success(m)
    case _ => Failure(TypeError)
  }

  /** `value[key]` for a string key: only a dict supports it. */
  function Subscript(j: Json, key: string): (r: Result<Json, Exception>)
    ensures r.Success? <==> j.Obj? && key in j.fields
    ensures r.Success? ==> r.value == j.fields[key]
    ensures j.Obj? && key !in j.fields ==> r == Failure(KeyError(Str(key)))
  {
    match j
    case Obj(m) => if key in m then Success(m[key]) else Failure(KeyError(Str(key)))
    case _ => Failure(TypeError)
  }

  /** `value[0]`: the first element of a list or first character of a string
      (`IndexError` when empty); a dict has no key `0`; other values are not
      subscriptable. */
  function First(j: Json): (r: Result<Json, Exception>)
    ensures j.Arr? && |j.elems| > 0 ==> r == Success(j.elems[0])
    ensures (j.Arr? && |j.elems| == 0) || (j.Str? && |j.s| == 0) ==> r == Failure(IndexError)
    ensures r.Success? ==> (j.Arr? && |j.elems| > 0) || (j.Str? && r.value.Str? && |r.value.s| == 1)
  {
    match j
    case Arr(xs) => if |xs| == 0 then Failure(IndexError) else Success(xs[0])
    case Str(s) => if |s| == 0 then Failure(IndexError) else Success(Str([s[0]]))
    case Obj(_) => Failure(KeyError(Num(0)))
    case _ => Failure(TypeError)
  }

  /** `parse_booking`: exactly one record, coerced from element 0 of the `bookie` list,
      or nothing and the exception that stopped it. */
  function ParseBookingResponse(resp: Response, env: Items.Env): (r: Yielded<Items.BookingItem>)
    ensures |r.items| <= 1
    ensures r.items == [] <==> r.raised.Some?
    ensures Decode(resp).Failure? ==> r.items == [] && r.raised.value.IsValueError()
    ensures r.items != [] ==> BookieRecord(resp).Success? && Items.Coerce(BookieRecord(resp).value, env) == Success(r.items[0])
    ensures BookieRecord(resp).Success? ==> (r.items != [] <==> Items.Coerce(BookieRecord(resp).value, env).Success?)
  {
    match BookieRecord(resp)
    case Failure(e) => Yielded([], Some(e))
    case Success(person) =>
      match Items.Coerce(person, env)
      case Success(b) => Yielded([b], None)
      case Failure(e) => Yielded([], Some(e))
  }

  /** What the spider hands back to Scrapy: a further request or a finished record. */
  datatype Output = Follow(request: Request) | Emit(item: Items.BookingItem)

  /** One dispatch step: the response to a request goes to the request's callback. */
  function Dispatch(req: Request, resp: Response, env: Items.Env): (r: Yielded<Output>)
    ensures req.callback == Parse ==> forall i :: 0 <= i < |r.items| ==> r.items[i].Follow?
    ensures req.callback == ParseBooking ==> |r.items| <= 1 && forall i :: 0 <= i < |r.items| ==> r.items[i].Emit?
  {
    match req.callback
    case Parse =>
      var y := ParseRoster(resp);
      Yielded(seq(|y.items|, i requires 0 <= i < |y.items| => Follow(y.items[i])), y.raised)
    case ParseBooking =>
      var y := ParseBookingResponse(resp, env);
      Yielded(seq(|y.items|, i requires 0 <= i < |y.items| => Emit(y.items[i])), y.raised)
  }
}

=== FILE: dates.dfy ===
/** Calendar timestamps, and the `MM/DD/YYYY` reading of a date that the validator tests
    expect of `convert_date` (`tests/test_validators.py`), a function that
    `sheriffwebsites/validators.py` does not define. */
module Dates {
  import opened Wrappers
  import Text

  /** A calendar timestamp: the date and time-of-day fields of `datetime.datetime`,
      without its microseconds and time zone. */
  datatype DateTime = DateTime(year: int, month: int, day: int, hour: int, minute: int, second: int)

  predicate LeapYear(y: int) {
    y % 4 == 0 && (y % 100 != 0 || y % 400 == 0)
  }

  /** The number of days in a month of the Gregorian calendar. */
  function DaysIn(month: int, year: int): int
    requires 1 <= month <= 12
  {
    if month == 2 then (if LeapYear(year) then 29 else 28)
    else if month in {4, 6, 9, 11} then 30
    else 31
  }

  /** A date at midnight that `MM/DD/YYYY` can spell: a real calendar day in the years
      `datetime` supports. */
  predicate Writable(d: DateTime) {
    && 1 <= d.year <= 9999 && 1 <= d.month <= 12 && 1 <= d.day <= DaysIn(d.month, d.year)
    && d.hour == 0 && d.minute == 0 && d.second == 0
  }

  predicate AllDigits(s: string) {
    forall i :: 0 <= i < |s| ==> Text.IsDigit(s[i])
  }

  function Pow10(k: nat): nat {
    if k == 0 then 1 else 10 * Pow10(k - 1)
  }

  /** `n` in exactly `width` decimal digits, zero-padded on the left. */
  function Padded(n: nat, width: nat): (r: string)
    requires n < Pow10(width)
    ensures |r| == width && AllDigits(r)
    ensures Text.DigitsValue(r) == n
  {
    if width == 0 then ""
    else
      var r := Padded(n / 10, width - 1) + [Text.DigitChar(n % 10)];
      assert r[..|r| - 1] == Padded(n / 10, width - 1);
      r
  }

  /** A run of digits is the zero-padded spelling of its own value. */
  lemma {:induction false} PaddedDigits(t: string)
    requires AllDigits(t)
    ensures Text.DigitsValue(t) < Pow10(|t|)
    ensures Padded(Text.DigitsValue(t), |t|) == t
  {
    if |t| > 0 {
      var init, c := t[..|t| - 1], t[|t| - 1] as int - '0' as int;
      assert AllDigits(init);
      PaddedDigits(init);
      var v := Text.DigitsValue(t);
      assert v == 10 * Text.DigitsValue(init) + c;
      assert v / 10 == Text.DigitsValue(init) && v % 10 == c;
      assert Text.DigitChar(c) == t[|t| - 1];
      assert t == init + [t[|t| - 1]];
    }
  }

  /** The `MM/DD/YYYY` spelling of a date. */
  function FormatDate(d: DateTime): (r: string)
    requires Writable(d)
    ensures |r| == 10 && r[2] == '/' && r[5] == '/'
  {
    Padded(d.month, 2) + "/" + Padded(d.day, 2) + "/" + Padded(d.year, 4)
  }

  /** `convert_date`: text of the form `MM/DD/YYYY` naming a real day is that day at
      midnight; anything else is rejected. A date read back is spelled by its text. */
  function ConvertDate(s: string): (r: Option<DateTime>)
    ensures r.Some? ==> Writable(r.value) && FormatDate(r.value) == s
  {
    if |s| == 10 && s[2] == '/' && s[5] == '/' && AllDigits(s[..2]) && AllDigits(s[3..5]) && AllDigits(s[6..]) then
      var d := DateTime(Text.DigitsValue(s[6..]), Text.DigitsValue(s[..2]), Text.DigitsValue(s[3..5]), 0, 0, 0);
      if Writable(d) then
        PaddedDigits(s[..2]);
        PaddedDigits(s[3..5]);
        PaddedDigits(s[6..]);
        assert s == s[..2] + "/" + s[3..5] + "/" + s[6..];
        Some(d)
      else None
    else None
  }

  /** Every date `MM/DD/YYYY` can spell is read back from its spelling. */
  lemma ConvertFormat(d: DateTime)
    requires Writable(d)
    ensures ConvertDate(FormatDate(d)) == Some(d)
  {
    var s := FormatDate(d);
    assert s[..2] == Padded(d.month, 2);
    assert s[3..5] == Padded(d.day, 2);
    assert s[6..] == Padded(d.year, 4);
  }

  /** The date of the validator test: `09/06/1993` is 6 September 1993. */
  lemma ConvertDateExample()
    ensures ConvertDate("09/06/1993") == Some(DateTime(1993, 9, 6, 0, 0, 0))
  {
    var s := "09/06/1993";
    assert s[..2] == "09" && s[3..5] == "06" && s[6..] == "1993";
    assert "1993"[..3] == "199" && "199"[..2] == "19" && "19"[..1] == "1";
    assert Text.DigitsValue("09") == 9 && Text.DigitsValue("06") == 6;
    assert Text.DigitsValue("19") == 19;
    assert Text.DigitsValue("1993") == 1993;
  }

  /** The date of birth of the items test fixture: 1 January 1976 is `01/01/1976`. */
  lemma FormatBirthDateExample()
    ensures FormatDate(DateTime(1976, 1, 1, 0, 0, 0)) == "01/01/1976"
  {
    var s := "01/01/1976";
    assert s[..2] == "01" && s[3..5] == "01" && s[6..] == "1976";
    assert "1976"[..3] == "197" && "197"[..2] == "19" && "19"[..1] == "1";
    assert Text.DigitsValue("01") == 1;
    assert Text.DigitsValue("19") == 19;
    assert Text.DigitsValue("1976") == 1976;
    assert ConvertDate(s) == Some(DateTime(1976, 1, 1, 0, 0, 0));
  }
}

=== FILE: errors.dfy ===
/** The Python exceptions the modelled code can raise, as values. */
module Errors {
  import opened JsonTree

  /** Why pydantic rejected one field: the key was absent or its value did not validate. */
  datatype ErrorKind = Missing | Invalid

  /** One entry of a pydantic `ValidationError`, located by the key that was read. */
  datatype ErrorDetail = ErrorDetail(loc: string, kind: ErrorKind)

  datatype Exception =
    | ValueError(msg: string)
    | JsonDecodeError
    | KeyError(key: Json)
    | IndexError
    | TypeError
    | AttributeError
    | ValidationError(errors: seq<ErrorDetail>)
  {
    /** `except ValueError` catches this exception: `json.JSONDecodeError` and
        pydantic's `ValidationError` are both subclasses of `ValueError`. */
    predicate IsValueError() {
      ValueError? || JsonDecodeError? || ValidationError?
    }
  }
}

=== FILE: item_properties.dfy ===
/** Record-level properties of booking coercion and of the computed fields. */
module ItemProperties {
  import opened Wrappers
  import opened JsonTree
  import opened Errors
  import Text
  import Validators
  import opened Items
  import opened Dates

  /** A record is built exactly when every alias key is present and every required
      field's value passes its coercer; optional fields never decide the outcome. */
  lemma CoerceSucceedsIff(raw: map<string, Json>, env: Env)
    ensures Coerce(raw, env).Success? <==>
      && (forall f :: Alias(f) in raw)
      && (forall f :: !Optional(f) ==> Convert(Describe(f).kind, env, raw[Alias(f)], Alias(f)).Success?)
  {
    if forall f :: Alias(f) in raw {
      forall f ensures CoerceField(f, raw, env).Success? <==>
        (!Optional(f) ==> Convert(Describe(f).kind, env, raw[Alias(f)], Alias(f)).Success?)
      {
        if Optional(f) {
          OptionalOutcome(f, raw, env);
        } else {
          RequiredOutcome(f, raw, env);
        }
      }
    } else {
      var f :| Alias(f) !in raw;
      assert CoerceField(f, raw, env).Failure?;
    }
  }

  /** In a built record every field holds its coerced value. */
  lemma FieldOf(raw: map<string, Json>, env: Env, f: Field)
    requires Coerce(raw, env).Success?
    ensures CoerceField(f, raw, env).Success?
    ensures Get(Coerce(raw, env).value, f) == CoerceField(f, raw, env).value
  {
  }

  /** How the fields of a record the lemmas below look at read as field values. */
  lemma GetFacts(b: BookingItem)
    ensures Get(b, FirstName) == Some(TextVal(b.firstName))
    ensures Get(b, MiddleName) == if b.middleName.Some? then Some(TextVal(b.middleName.value)) else None
    ensures Get(b, LastName) == Some(TextVal(b.lastName))
    ensures Get(b, Address) == Some(TextVal(b.address))
    ensures Get(b, City) == Some(TextVal(b.city))
    ensures Get(b, ReleaseDate) == if b.releaseDate.Some? then Some(DateVal(b.releaseDate.value)) else None
    ensures Get(b, HeldFor) == if b.heldFor.Some? then Some(TextVal(b.heldFor.value)) else None
    ensures Get(b, SexField) == Some(SexVal(b.sex))
    ensures Get(b, RaceField) == Some(RaceVal(b.race))
    ensures Get(b, StateField) == Some(TextVal(b.state))
    ensures Get(b, Zipcode) == if b.zipcode.Some? then Some(TextVal(b.zipcode.value)) else None
    ensures Get(b, BirthDate) == Some(DateVal(b.birthDate))
  {
  }

  /** What the `Sex` and `Race` values make of their fields when these succeed. */
  lemma SexRaceOutcomes(raw: map<string, Json>, env: Env)
    requires CoerceField(SexField, raw, env).Success? && CoerceField(RaceField, raw, env).Success?
    ensures "Sex" in raw && "Race" in raw
    ensures raw["Sex"] in {Str("M"), Str("F"), Str("X")}
    ensures CoerceField(SexField, raw, env).value == Some(SexVal(ParseSex(raw["Sex"].s).value))
    ensures raw["Race"] in {Str("A"), Str("B"), Str("H"), Str("M"), Str("I"), Str("O"), Str("W")}
    ensures CoerceField(RaceField, raw, env).value == Some(RaceVal(ParseRace(raw["Race"].s).value))
  {
    OptionalFields(SexField);
    OptionalFields(RaceField);
    RequiredOutcome(SexField, raw, env);
    RequiredOutcome(RaceField, raw, env);
  }

  /** What the `State` value makes of its field when it succeeds. */
  lemma StateOutcome(raw: map<string, Json>, env: Env)
    requires CoerceField(StateField, raw, env).Success?
    ensures "State" in raw
    ensures raw["State"].Str? && raw["State"].s in env.states
    ensures CoerceField(StateField, raw, env).value == Some(TextVal(env.states[raw["State"].s].abbr))
  {
    OptionalFields(StateField);
    RequiredOutcome(StateField, raw, env);
  }

  /** What the `Zip` value makes of its field when it is present. */
  lemma ZipOutcome(raw: map<string, Json>, env: Env)
    requires "Zip" in raw
    ensures CoerceField(Zipcode, raw, env).Success?
    ensures CoerceField(Zipcode, raw, env).value ==
      if raw["Zip"].Str? && ZipMatches(raw["Zip"].s) then Some(TextVal(raw["Zip"].s)) else None
  {
    OptionalFields(Zipcode);
    OptionalOutcome(Zipcode, raw, env);
  }

  /** A missing alias key fails the whole record, optional field or not, and the
      error names the key as missing. */
  lemma MissingKeyRejects(raw: map<string, Json>, env: Env, f: Field)
    requires Alias(f) !in raw
    ensures Coerce(raw, env).Failure?
    ensures ErrorDetail(Alias(f), Missing) in Coerce(raw, env).error.errors
  {
    assert CoerceField(f, raw, env) == Failure(Missing);
  }

  /** A required field whose value the coercer rejects fails the whole record, and
      the error names the field's key as invalid. */
  lemma RequiredFailureRejects(raw: map<string, Json>, env: Env, f: Field)
    requires !Optional(f) && Alias(f) in raw
    requires Convert(Describe(f).kind, env, raw[Alias(f)], Alias(f)).Failure?
    ensures Coerce(raw, env).Failure?
    ensures ErrorDetail(Alias(f), Invalid) in Coerce(raw, env).error.errors
  {
    RequiredOutcome(f, raw, env);
  }

  /** Whatever value an optional field holds, the record succeeds or fails as it
      would have without the change. */
  lemma OptionalNeverDecides(raw: map<string, Json>, env: Env, f: Field, v: Json)
    requires Optional(f) && Alias(f) in raw
    ensures Coerce(raw[Alias(f) := v], env).Success? == Coerce(raw, env).Success?
  {
    var raw' := raw[Alias(f) := v];
    forall g ensures CoerceField(g, raw', env).Success? == CoerceField(g, raw, env).Success? {
      OptionalChangeKeepsSuccess(raw, env, f, v, g);
    }
  }

  /** Changing an optional field's value leaves every field's success as it was. */
  lemma OptionalChangeKeepsSuccess(raw: map<string, Json>, env: Env, f: Field, v: Json, g: Field)
    requires Optional(f) && Alias(f) in raw
    ensures CoerceField(g, raw[Alias(f) := v], env).Success? == CoerceField(g, raw, env).Success?
  {
    if g == f {
      OptionalSucceeds(f, raw, env);
      OptionalSucceeds(f, raw[Alias(f) := v], env);
    } else {
      OtherKeyUnchanged(raw, env, f, v, g);
    }
  }

  /** A present optional field always succeeds. */
  lemma OptionalSucceeds(f: Field, raw: map<string, Json>, env: Env)
    requires Optional(f) && Alias(f) in raw
    ensures CoerceField(f, raw, env).Success?
  {
  }

  /** A field's outcome depends only on the value of its own key. */
  lemma OtherKeyUnchanged(raw: map<string, Json>, env: Env, f: Field, v: Json, g: Field)
    requires f != g
    ensures CoerceField(g, raw[Alias(f) := v], env) == CoerceField(g, raw, env)
  {
    AliasesDistinct(f, g);
    assert Alias(g) in raw[Alias(f) := v] <==> Alias(g) in raw;
  }

  /** A record is determined by its field values. */
  lemma RecordByFields(b: BookingItem, b': BookingItem)
    requires forall f :: Get(b, f) == Get(b', f)
    ensures b == b'
  {
    assert b.bookingId == b'.bookingId by { assert Get(b, BookingId) == Get(b', BookingId); }
    assert b.personId == b'.personId by { assert Get(b, PersonId) == Get(b', PersonId); }
    assert b.bookingNum == b'.bookingNum by { assert Get(b, BookingNum) == Get(b', BookingNum); }
    assert b.bookingDate == b'.bookingDate by { assert Get(b, BookingDate) == Get(b', BookingDate); }
    assert b.releaseDate == b'.releaseDate by { assert Get(b, ReleaseDate) == Get(b', ReleaseDate); }
    assert b.heldFor == b'.heldFor by { assert Get(b, HeldFor) == Get(b', HeldFor); }
    assert b.firstName == b'.firstName by { assert Get(b, FirstName) == Get(b', FirstName); }
    assert b.middleName == b'.middleName by { assert Get(b, MiddleName) == Get(b', MiddleName); }
    assert b.lastName == b'.lastName by { assert Get(b, LastName) == Get(b', LastName); }
    assert b.sex == b'.sex by { assert Get(b, SexField) == Get(b', SexField); }
    assert b.race == b'.race by { assert Get(b, RaceField) == Get(b', RaceField); }
    assert b.classification == b'.classification by { assert Get(b, Classification) == Get(b', Classification); }
    assert b.address == b'.address by { assert Get(b, Address) == Get(b', Address); }
    assert b.city == b'.city by { assert Get(b, City) == Get(b', City); }
    assert b.state == b'.state by { assert Get(b, StateField) == Get(b', StateField); }
    assert b.zipcode == b'.zipcode by { assert Get(b, Zipcode) == Get(b', Zipcode); }
    assert b.charges == b'.charges by { assert Get(b, Charges) == Get(b', Charges); }
    assert b.birthDate == b'.birthDate by { assert Get(b, BirthDate) == Get(b', BirthDate); }
  }

  /** Raw records on which every field has the same outcome coerce alike. */
  lemma SameOutcomesSameRecord(raw: map<string, Json>, raw': map<string, Json>, env: Env)
    requires forall f :: CoerceField(f, raw, env) == CoerceField(f, raw', env)
    ensures Coerce(raw, env) == Coerce(raw', env)
  {
    var r, r' := Coerce(raw, env), Coerce(raw', env);
    if r.Success? {
      assert r'.Success?;
      forall f ensures Get(r.value, f) == Get(r'.value, f) {
        FieldOf(raw, env, f);
        FieldOf(raw', env, f);
      }
      RecordByFields(r.value, r'.value);
    } else {
      ErrorsAgree(Fields, raw, raw', env);
      assert r.error == ValidationError(FieldErrors(Fields, raw, env));
    }
  }

  /** Keys that are no field's alias (such as `FullName`, `Pic` or `county`) are
      ignored. */
  lemma ExtraKeysIgnored(raw: map<string, Json>, env: Env, k: string, v: Json)
    requires forall f :: Alias(f) != k
    ensures Coerce(raw[k := v], env) == Coerce(raw, env)
  {
    forall f ensures CoerceField(f, raw[k := v], env) == CoerceField(f, raw, env) {
      assert Alias(f) != k;
    }
    SameOutcomesSameRecord(raw[k := v], raw, env);
  }

  /** Two raw records on which every field has the same outcome give the same errors. */
  lemma {:induction false} ErrorsAgree(fs: seq<Field>, raw: map<string, Json>, raw': map<string, Json>, env: Env)
    requires forall f :: CoerceField(f, raw, env) == CoerceField(f, raw', env)
    ensures FieldErrors(fs, raw, env) == FieldErrors(fs, raw', env)
  {
    if |fs| > 0 {
      ErrorsAgree(fs[1..], raw, raw', env);
    }
  }

  /** A record is only built when `Sex` is one of `"M"`, `"F"`, `"X"` and `Race` one of
      `"A"`, `"B"`, `"H"`, `"M"`, `"I"`, `"O"`, `"W"`; the record keeps the member with
      that code. */
  lemma CoercedSexAndRace(raw: map<string, Json>, env: Env)
    requires Coerce(raw, env).Success?
    ensures "Sex" in raw && "Race" in raw
    ensures raw["Sex"] in {Str("M"), Str("F"), Str("X")}
    ensures SexCode(Coerce(raw, env).value.sex) == raw["Sex"].s
    ensures raw["Race"] in {Str("A"), Str("B"), Str("H"), Str("M"), Str("I"), Str("O"), Str("W")}
    ensures RaceCode(Coerce(raw, env).value.race) == raw["Race"].s
  {
    var b := Coerce(raw, env).value;
    FieldOf(raw, env, SexField);
    FieldOf(raw, env, RaceField);
    SexRaceOutcomes(raw, env);
  }

  /** Any other `Sex` value fails the record. */
  lemma BadSexRejects(raw: map<string, Json>, env: Env)
    requires "Sex" in raw && raw["Sex"] !in {Str("M"), Str("F"), Str("X")}
    ensures Coerce(raw, env).Failure?
    ensures ErrorDetail("Sex", Invalid) in Coerce(raw, env).error.errors
  {
    OptionalFields(SexField);
    RequiredFailureRejects(raw, env, SexField);
  }

  /** Any other `Race` value fails the record. */
  lemma BadRaceRejects(raw: map<string, Json>, env: Env)
    requires "Race" in raw && raw["Race"] !in {Str("A"), Str("B"), Str("H"), Str("M"), Str("I"), Str("O"), Str("W")}
    ensures Coerce(raw, env).Failure?
    ensures ErrorDetail("Race", Invalid) in Coerce(raw, env).error.errors
  {
    OptionalFields(RaceField);
    RequiredFailureRejects(raw, env, RaceField);
  }

  /** The state of a record is the abbreviation the lookup gives for the raw `State`
      string, never the raw string on its own account. */
  lemma CoercedState(raw: map<string, Json>, env: Env)
    requires Coerce(raw, env).Success?
    ensures "State" in raw
    ensures raw["State"].Str? && raw["State"].s in env.states
    ensures Coerce(raw, env).value.state == env.states[raw["State"].s].abbr
  {
    var b := Coerce(raw, env).value;
    FieldOf(raw, env, StateField);
    StateOutcome(raw, env);
  }

  /** A record has a ZIP code exactly when the raw `Zip` is a string starting with five
      digits, and then it is that string unchanged (trailing characters included). */
  lemma CoercedZip(raw: map<string, Json>, env: Env)
    requires Coerce(raw, env).Success?
    ensures "Zip" in raw
    ensures Coerce(raw, env).value.zipcode.Some? <==> raw["Zip"].Str? && ZipMatches(raw["Zip"].s)
    ensures Coerce(raw, env).value.zipcode.Some? ==> Coerce(raw, env).value.zipcode.value == raw["Zip"].s
  {
    var b := Coerce(raw, env).value;
    FieldOf(raw, env, Zipcode);
    CodedAliases();
    ZipOutcome(raw, env);
    GetFacts(b);
  }

  /** `full_name` without a middle name is first and last name around one space. */
  lemma FullNameWithoutMiddle(b: BookingItem)
    ensures FullName(b.(middleName := None)) == b.firstName + " " + b.lastName
    ensures FullName(b.(middleName := Some(""))) == b.firstName + " " + b.lastName
  {
  }

  /** Without a ZIP code the trailing separator is stripped away:
      `mailing_address` is `address\ncity, state`. */
  lemma MailingAddressWithoutZip(b: BookingItem)
    requires b.zipcode.None?
    requires |b.address| > 0 && !Text.IsSpace(b.address[0])
    requires |b.state| > 0 && !Text.IsSpace(b.state[|b.state| - 1])
    ensures MailingAddress(b) == b.address + "\n" + b.city + ", " + b.state
  {
    var s := b.address + "\n" + b.city + ", " + b.state;
    assert AddressLines(b) == "" + s + " ";
    Text.StripPadded("", s, " ");
  }

  /** With a ZIP code that ends in a non-space, nothing but leading whitespace of the
      street is stripped. */
  lemma MailingAddressWithZip(b: BookingItem)
    requires b.zipcode.Some? && |b.zipcode.value| > 0
    requires !Text.IsSpace(b.zipcode.value[|b.zipcode.value| - 1])
    requires |b.address| > 0 && !Text.IsSpace(b.address[0])
    ensures MailingAddress(b) == b.address + "\n" + b.city + ", " + b.state + " " + b.zipcode.value
  {
    var s := AddressLines(b);
    assert s == "" + s + "";
    Text.StripPadded("", s, "");
  }

  /** With an empty street the newline is stripped too: the address starts at the city. */
  lemma MailingAddressWithoutStreet(b: BookingItem)
    requires b.address == "" && b.zipcode.None?
    requires |b.city| > 0 && !Text.IsSpace(b.city[0])
    requires |b.state| > 0 && !Text.IsSpace(b.state[|b.state| - 1])
    ensures MailingAddress(b) == b.city + ", " + b.state
  {
    var s := b.city + ", " + b.state;
    assert AddressLines(b) == "\n" + s + " ";
    Text.StripPadded("\n", s, " ");
  }

  /** The booking of the items test fixture: the roster's raw fields plus `county`. */
  function FixtureRaw(): map<string, Json> {
    map[
      "BookingID" := Str("13826"), "InmateID" := Str("40730"), "BookingNum" := Str("25-0048"),
      "BookingDate" := Str("2025-01-22T02:44:00"), "ReleaseDate" := Str(""), "heldfor" := Str(""),
      "FullName" := Str("TESTLAST, TESTMIDDLE TESTFIRST"), "FName" := Str("TESTFIRST"),
      "MName" := Str("TESTMIDDLE"), "LName" := Str("TESTLAST"), "Sex" := Str("M"), "Race" := Str("W"),
      "Classification" := Str("Minimum Security"), "Pic" := Str("testpic.bmp"),
      "Address" := Str("PO BOX 502"), "City" := Str("EAKLY"), "State" := Str("OK"), "Zip" := Str("730  "),
      "Charges" := Str("DRIVING WHILE LICENSE SUSPENDED (DUS) OR REVOKED (DUR)"),
      "dob" := Str("01/01/1976"), "county" := Str("Caddo")]
  }

  /** A state table that knows Oklahoma, and a date parser that reads the fixture's
      booking date and, like pydantic's, rejects every text containing `/`. */
  function FixtureEnv(): Env {
    Env(
      map["OK" := Validators.StateInfo("Oklahoma", "OK")],
      (j: Json) =>
        if j == Str("2025-01-22T02:44:00") then Some(DateTime(2025, 1, 22, 2, 44, 0))
        else None)
  }

  /** A raw record carrying the fixture's values under the alias keys (other keys may
      be anything). */
  ghost predicate FixtureFields(raw: map<string, Json>) {
    FixtureTextFields(raw) && FixtureDateFields(raw) && FixtureCodeFields(raw) && FixtureOptionalFields(raw)
  }

  /** The fixture's values of the required plain-string fields. */
  ghost predicate FixtureTextFields(raw: map<string, Json>) {
    && "BookingID" in raw && raw["BookingID"] == Str("13826")
    && "InmateID" in raw && raw["InmateID"] == Str("40730")
    && "BookingNum" in raw && raw["BookingNum"] == Str("25-0048")
    && "FName" in raw && raw["FName"] == Str("TESTFIRST")
    && "LName" in raw && raw["LName"] == Str("TESTLAST")
    && "Classification" in raw && raw["Classification"] == Str("Minimum Security")
    && "Address" in raw && raw["Address"] == Str("PO BOX 502")
    && "City" in raw && raw["City"] == Str("EAKLY")
    && "Charges" in raw && raw["Charges"] == Str("DRIVING WHILE LICENSE SUSPENDED (DUS) OR REVOKED (DUR)")
  }

  /** The fixture's values of the required date fields. */
  ghost predicate FixtureDateFields(raw: map<string, Json>) {
    && "BookingDate" in raw && raw["BookingDate"] == Str("2025-01-22T02:44:00")
    && "dob" in raw && raw["dob"] == Str("01/01/1976")
  }

  /** The fixture's values of the coded required fields. */
  ghost predicate FixtureCodeFields(raw: map<string, Json>) {
    && "Sex" in raw && raw["Sex"] == Str("M")
    && "Race" in raw && raw["Race"] == Str("W")
    && "State" in raw && raw["State"] == Str("OK")
  }

  /** The fixture's values of the optional fields. */
  ghost predicate FixtureOptionalFields(raw: map<string, Json>) {
    && "ReleaseDate" in raw && raw["ReleaseDate"] == Str("")
    && "heldfor" in raw && raw["heldfor"] == Str("")
    && "MName" in raw && raw["MName"] == Str("TESTMIDDLE")
    && "Zip" in raw && raw["Zip"] == Str("730  ")
  }

  /** pydantic's datetime parser reads RFC 3339 text and numbers only: no text holding
      a `/` is a date to it. */
  ghost predicate PydanticDateText(env: Env) {
    forall s {:trigger env.parseDate(Str(s))} :: '/' in s ==> env.parseDate(Str(s)).None?
  }

  /** An environment that knows Oklahoma, reads the fixture's booking date, and has
      pydantic's parser for dates. */
  ghost predicate FixtureEnvironment(env: Env) {
    && "OK" in env.states && env.states["OK"].abbr == "OK"
    && env.parseDate(Str("2025-01-22T02:44:00")).Some?
    && PydanticDateText(env)
  }

  /** An environment that knows Oklahoma and reads both of the fixture's dates, its
      date of birth as 1 January 1976. */
  ghost predicate ReadsFixtureDates(env: Env) {
    && "OK" in env.states && env.states["OK"].abbr == "OK"
    && env.parseDate(Str("2025-01-22T02:44:00")).Some?
    && env.parseDate(Str("01/01/1976")) == Some(DateTime(1976, 1, 1, 0, 0, 0))
  }

  /** The fixture and its environment are such. */
  lemma FixtureIsSuch()
    ensures FixtureFields(FixtureRaw())
    ensures FixtureEnvironment(FixtureEnv())
  {
    FixtureRawTexts();
    FixtureRawRest();
  }

  lemma FixtureRawTexts()
    ensures FixtureTextFields(FixtureRaw())
  {
  }

  lemma FixtureRawRest()
    ensures FixtureDateFields(FixtureRaw()) && FixtureCodeFields(FixtureRaw()) && FixtureOptionalFields(FixtureRaw())
  {
  }

  /** As written, `birth_date` is read by pydantic's parser alone, which rejects the
      fixture's `"01/01/1976"`: the required field fails and with it the record. */
  lemma FixtureRejectedAsWritten(raw: map<string, Json>, env: Env)
    requires FixtureFields(raw) && FixtureEnvironment(env)
    ensures Coerce(raw, env).Failure?
    ensures ErrorDetail("dob", Invalid) in Coerce(raw, env).error.errors
  {
    DobFails(raw, env);
  }

  /** A `dob` that pydantic's parser cannot read fails the record, whatever else it holds. */
  lemma DobFails(raw: map<string, Json>, env: Env)
    requires "dob" in raw && raw["dob"] == Str("01/01/1976") && PydanticDateText(env)
    ensures Coerce(raw, env).Failure?
    ensures ErrorDetail("dob", Invalid) in Coerce(raw, env).error.errors
  {
    CodedAliases();
    DobRejected(raw, env);
    BirthDateRejected(raw, env);
  }

  /** The keys the coded fields and the date of birth are read from. */
  lemma CodedAliases()
    ensures Alias(SexField) == "Sex" && Alias(RaceField) == "Race"
    ensures Alias(StateField) == "State" && Alias(Zipcode) == "Zip" && Alias(BirthDate) == "dob"
  {
  }

  lemma BirthDateRejected(raw: map<string, Json>, env: Env)
    requires Alias(BirthDate) in raw
    requires Convert(Describe(BirthDate).kind, env, raw[Alias(BirthDate)], Alias(BirthDate)).Failure?
    ensures Coerce(raw, env).Failure?
    ensures ErrorDetail(Alias(BirthDate), Invalid) in Coerce(raw, env).error.errors
  {
    OptionalFields(BirthDate);
    RequiredFailureRejects(raw, env, BirthDate);
  }

  lemma DobRejected(raw: map<string, Json>, env: Env)
    requires "dob" in raw && raw["dob"] == Str("01/01/1976") && PydanticDateText(env)
    ensures Alias(BirthDate) in raw
    ensures Convert(Describe(BirthDate).kind, env, raw[Alias(BirthDate)], Alias(BirthDate)).Failure?
  {
    var dob := "01/01/1976";
    assert dob[2] == '/';
    assert env.parseDate(Str(dob)).None?;
  }

  /** With `convert_date` in front of pydantic's parser, both fixture dates are read. */
  lemma CorrectedReadsFixtureDates(env: Env)
    requires FixtureEnvironment(env)
    ensures ReadsFixtureDates(WithConvertDate(env))
  {
    var iso := "2025-01-22T02:44:00";
    assert iso[2] != '/';
    assert ConvertDate(iso).None?;
    WithConvertDateReadsDates(env, DateTime(1976, 1, 1, 0, 0, 0));
    FormatBirthDateExample();
  }

  /** Every field of the fixture has a successful outcome. */
  lemma FixtureFieldsSucceed(raw: map<string, Json>, env: Env, f: Field)
    requires FixtureFields(raw) && ReadsFixtureDates(env)
    ensures CoerceField(f, raw, env).Success?
  {
    match f
    case ReleaseDate | HeldFor | MiddleName | Zipcode =>
      assert Alias(f) in raw;
      OptionalFields(f);
      OptionalSucceeds(f, raw, env);
    case BookingDate | BirthDate => FixtureDateSucceeds(raw, env, f);
    case SexField | RaceField | StateField => FixtureCodeSucceeds(raw, env, f);
    case _ => FixtureTextSucceeds(raw, env, f);
  }

  lemma FixtureTextSucceeds(raw: map<string, Json>, env: Env, f: Field)
    requires FixtureTextFields(raw)
    requires f in {BookingId, PersonId, BookingNum, FirstName, LastName, Classification, Address, City, Charges}
    ensures CoerceField(f, raw, env).Success?
  {
    assert Alias(f) in raw && raw[Alias(f)].Str?;
    OptionalFields(f);
    RequiredOutcome(f, raw, env);
  }

  lemma FixtureDateSucceeds(raw: map<string, Json>, env: Env, f: Field)
    requires FixtureDateFields(raw) && ReadsFixtureDates(env) && f in {BookingDate, BirthDate}
    ensures CoerceField(f, raw, env).Success?
  {
    OptionalFields(f);
    RequiredOutcome(f, raw, env);
  }

  lemma FixtureCodeSucceeds(raw: map<string, Json>, env: Env, f: Field)
    requires FixtureCodeFields(raw) && ReadsFixtureDates(env) && f in {SexField, RaceField, StateField}
    ensures CoerceField(f, raw, env).Success?
  {
    OptionalFields(f);
    RequiredOutcome(f, raw, env);
  }

  /** A required plain-string field holds the raw string unchanged. */
  lemma RequiredTextKept(b: BookingItem, raw: map<string, Json>, env: Env, f: Field)
    requires f in {BookingId, PersonId, BookingNum, FirstName, LastName, Classification, Address, City, Charges}
    requires CoerceField(f, raw, env).Success? && Get(b, f) == CoerceField(f, raw, env).value
    ensures Alias(f) in raw && raw[Alias(f)].Str?
    ensures Get(b, f) == Some(TextVal(raw[Alias(f)].s))
  {
    OptionalFields(f);
    RequiredOutcome(f, raw, env);
  }

  /** An optional field whose raw value is `""` is absent. */
  lemma EmptyOptionalAbsent(b: BookingItem, raw: map<string, Json>, env: Env, f: Field)
    requires Optional(f) && Alias(f) in raw && raw[Alias(f)] == Str("")
    requires Get(b, f) == CoerceField(f, raw, env).value
    ensures Get(b, f) == None
  {
    OptionalOutcome(f, raw, env);
  }

  /** An optional plain-string field whose raw value is a non-empty string keeps it. */
  lemma OptionalTextKept(b: BookingItem, raw: map<string, Json>, env: Env, f: Field)
    requires f in {HeldFor, MiddleName}
    requires Alias(f) in raw && raw[Alias(f)].Str? && raw[Alias(f)] != Str("")
    requires Get(b, f) == CoerceField(f, raw, env).value
    ensures Get(b, f) == Some(TextVal(raw[Alias(f)].s))
  {
    OptionalFields(f);
    OptionalOutcome(f, raw, env);
  }

  /** With `convert_date` reading its date of birth, the fixture coerces: empty release
      date and held-for are absent, the ZIP `"730  "` is dropped without failing the
      record, the coded fields keep their codes, and the birth date is 1 January 1976. */
  lemma FixtureBooking(raw: map<string, Json>, env: Env)
    requires FixtureFields(raw) && FixtureEnvironment(env)
    ensures Coerce(raw, WithConvertDate(env)).Success?
    ensures var b := Coerce(raw, WithConvertDate(env)).value;
      && b.releaseDate.None? && b.heldFor.None? && b.zipcode.None?
      && b.state == "OK" && b.sex == Male && b.race == White
      && b.firstName == "TESTFIRST" && b.middleName == Some("TESTMIDDLE") && b.lastName == "TESTLAST"
      && b.address == "PO BOX 502" && b.city == "EAKLY"
      && b.birthDate == DateTime(1976, 1, 1, 0, 0, 0)
  {
    CorrectedReadsFixtureDates(env);
    FixtureBuilds(raw, WithConvertDate(env));
  }

  /** The fixture's record in an environment that reads both of its dates. */
  lemma FixtureBuilds(raw: map<string, Json>, env: Env)
    requires FixtureFields(raw) && ReadsFixtureDates(env)
    ensures Coerce(raw, env).Success?
    ensures var b := Coerce(raw, env).value;
      && b.releaseDate.None? && b.heldFor.None? && b.zipcode.None?
      && b.state == "OK" && b.sex == Male && b.race == White
      && b.firstName == "TESTFIRST" && b.middleName == Some("TESTMIDDLE") && b.lastName == "TESTLAST"
      && b.address == "PO BOX 502" && b.city == "EAKLY"
      && b.birthDate == DateTime(1976, 1, 1, 0, 0, 0)
  {
    forall f ensures CoerceField(f, raw, env).Success? {
      FixtureFieldsSucceed(raw, env, f);
    }
    var b := Coerce(raw, env).value;
    FixtureTexts(raw, env, b);
    CoercedState(raw, env);
    CoercedSexAndRace(raw, env);
    CoercedZip(raw, env);
    assert !ZipMatches("730  ") by {
      assert !Text.IsDigit("730  "[3]);
    }
    FixtureBirthDate(raw, env, b);
  }

  lemma FixtureBirthDate(raw: map<string, Json>, env: Env, b: BookingItem)
    requires FixtureFields(raw) && ReadsFixtureDates(env)
    requires Coerce(raw, env) == Success(b)
    ensures b.birthDate == DateTime(1976, 1, 1, 0, 0, 0)
  {
    FieldOf(raw, env, BirthDate);
    DobRead(raw, env);
    GetFacts(b);
  }

  lemma DobRead(raw: map<string, Json>, env: Env)
    requires FixtureFields(raw) && ReadsFixtureDates(env)
    ensures CoerceField(BirthDate, raw, env) == Success(Some(DateVal(DateTime(1976, 1, 1, 0, 0, 0))))
  {
    OptionalFields(BirthDate);
    RequiredOutcome(BirthDate, raw, env);
  }

  lemma FixtureTexts(raw: map<string, Json>, env: Env, b: BookingItem)
    requires FixtureFields(raw)
    requires Coerce(raw, env) == Success(b)
    ensures b.firstName == "TESTFIRST" && b.middleName == Some("TESTMIDDLE") && b.lastName == "TESTLAST"
    ensures b.address == "PO BOX 502" && b.city == "EAKLY"
    ensures b.releaseDate.None? && b.heldFor.None?
  {
    FieldOf(raw, env, FirstName);
    FieldOf(raw, env, MiddleName);
    FieldOf(raw, env, LastName);
    FieldOf(raw, env, Address);
    FieldOf(raw, env, City);
    FieldOf(raw, env, ReleaseDate);
    FieldOf(raw, env, HeldFor);
    FixtureNameValues(raw, env, b);
    FixtureStreetValues(raw, env, b);
    FixtureEmptyValues(raw, env, b);
  }

  lemma FixtureNameValues(raw: map<string, Json>, env: Env, b: BookingItem)
    requires "FName" in raw && raw["FName"] == Str("TESTFIRST")
    requires "MName" in raw && raw["MName"] == Str("TESTMIDDLE")
    requires "LName" in raw && raw["LName"] == Str("TESTLAST")
    requires CoerceField(FirstName, raw, env).Success? && Get(b, FirstName) == CoerceField(FirstName, raw, env).value
    requires CoerceField(MiddleName, raw, env).Success? && Get(b, MiddleName) == CoerceField(MiddleName, raw, env).value
    requires CoerceField(LastName, raw, env).Success? && Get(b, LastName) == CoerceField(LastName, raw, env).value
    ensures b.firstName == "TESTFIRST" && b.middleName == Some("TESTMIDDLE") && b.lastName == "TESTLAST"
  {
    GetFacts(b);
    RequiredTextKept(b, raw, env, FirstName);
    RequiredTextKept(b, raw, env, LastName);
    OptionalTextKept(b, raw, env, MiddleName);
  }

  lemma FixtureStreetValues(raw: map<string, Json>, env: Env, b: BookingItem)
    requires "Address" in raw && raw["Address"] == Str("PO BOX 502")
    requires "City" in raw && raw["City"] == Str("EAKLY")
    requires CoerceField(Address, raw, env).Success? && Get(b, Address) == CoerceField(Address, raw, env).value
    requires CoerceField(City, raw, env).Success? && Get(b, City) == CoerceField(City, raw, env).value
    ensures b.address == "PO BOX 502" && b.city == "EAKLY"
  {
    GetFacts(b);
    RequiredTextKept(b, raw, env, Address);
    RequiredTextKept(b, raw, env, City);
  }

  lemma FixtureEmptyValues(raw: map<string, Json>, env: Env, b: BookingItem)
    requires "ReleaseDate" in raw && raw["ReleaseDate"] == Str("")
    requires "heldfor" in raw && raw["heldfor"] == Str("")
    requires CoerceField(ReleaseDate, raw, env).Success? && Get(b, ReleaseDate) == CoerceField(ReleaseDate, raw, env).value
    requires CoerceField(HeldFor, raw, env).Success? && Get(b, HeldFor) == CoerceField(HeldFor, raw, env).value
    ensures b.releaseDate.None? && b.heldFor.None?
  {
    GetFacts(b);
    OptionalFields(ReleaseDate);
    OptionalFields(HeldFor);
    EmptyOptionalAbsent(b, raw, env, ReleaseDate);
    EmptyOptionalAbsent(b, raw, env, HeldFor);
  }

  /** With `convert_date` reading its date of birth, the computed fields of the
      fixture read as its tests expect. */
  lemma FixtureComputedFields(raw: map<string, Json>, env: Env)
    requires FixtureFields(raw) && FixtureEnvironment(env)
    ensures Coerce(raw, WithConvertDate(env)).Success?
    ensures var b := Coerce(raw, WithConvertDate(env)).value;
      && FullName(b) == "TESTFIRST TESTMIDDLE TESTLAST"
      && FullName(b.(middleName := None)) == "TESTFIRST TESTLAST"
      && MailingAddress(b) == "PO BOX 502\nEAKLY, OK"
  {
    FixtureBooking(raw, env);
    FixtureNames(Coerce(raw, WithConvertDate(env)).value);
  }

  /** The computed fields of a record holding the fixture's names and address. */
  lemma FixtureNames(b: BookingItem)
    requires b.firstName == "TESTFIRST" && b.middleName == Some("TESTMIDDLE") && b.lastName == "TESTLAST"
    requires b.address == "PO BOX 502" && b.city == "EAKLY" && b.state == "OK" && b.zipcode.None?
    ensures FullName(b) == "TESTFIRST TESTMIDDLE TESTLAST"
    ensures FullName(b.(middleName := None)) == "TESTFIRST TESTLAST"
    ensures MailingAddress(b) == "PO BOX 502\nEAKLY, OK"
  {
    FixtureFullName(b);
    FixtureShortName(b.(middleName := None));
    FixtureMailingAddress(b);
  }

  lemma FixtureFullName(b: BookingItem)
    requires b.firstName == "TESTFIRST" && b.middleName == Some("TESTMIDDLE") && b.lastName == "TESTLAST"
    ensures FullName(b) == "TESTFIRST TESTMIDDLE TESTLAST"
  {
  }

  lemma FixtureShortName(b: BookingItem)
    requires b.firstName == "TESTFIRST" && b.middleName == None && b.lastName == "TESTLAST"
    ensures FullName(b) == "TESTFIRST TESTLAST"
  {
  }

  lemma FixtureMailingAddress(b: BookingItem)
    requires b.address == "PO BOX 502" && b.city == "EAKLY" && b.state == "OK" && b.zipcode.None?
    ensures MailingAddress(b) == "PO BOX 502\nEAKLY, OK"
  {
    MailingAddressWithoutZip(b);
  }
}

=== FILE: items.dfy ===
/** The booking record and its coercion from a raw key/value map
    (`sheriffwebsites/items.py`). pydantic's per-field machinery is replaced by a static
    descriptor table: for every field, the single key it is read from, the type it is
    coerced to and its annotation (from which optionality is derived). */
module Items {
  import opened Wrappers
  import opened JsonTree
  import opened Errors
  import Text
  import Utils
  import Validators
  import opened Dates

  /** A person's sex, recorded as a one-letter code. */
  datatype Sex = Male | Female | Other

  function SexCode(x: Sex): string {
    match x
    case Male => "M"
    case Female => "F"
    case Other => "X"
  }

  /** The `Sex` member whose value is `code`, if any. */
  function ParseSex(code: string): (r: Option<Sex>)
    ensures r.Some? <==> code in {"M", "F", "X"}
    ensures r.Some? ==> SexCode(r.value) == code
  {
    if code == "M" then Some(Male)
    else if code == "F" then Some(Female)
    else if code == "X" then Some(Sex.Other)
    else None
  }

  lemma SexRoundTrip(x: Sex)
    ensures ParseSex(SexCode(x)) == Some(x)
  {
  }

  /** A person's race, recorded as a one-letter code. */
  datatype Race = Asian | Black | Hispanic | Multiracial | Native | Other | White

  function RaceCode(x: Race): string {
    match x
    case Asian => "A"
    case Black => "B"
    case Hispanic => "H"
    case Multiracial => "M"
    case Native => "I"
    case Other => "O"
    case White => "W"
  }

  /** The `Race` member whose value is `code`, if any. */
  function ParseRace(code: string): (r: Option<Race>)
    ensures r.Some? <==> code in {"A", "B", "H", "M", "I", "O", "W"}
    ensures r.Some? ==> RaceCode(r.value) == code
  {
    if code == "A" then Some(Asian)
    else if code == "B" then Some(Black)
    else if code == "H" then Some(Hispanic)
    else if code == "M" then Some(Multiracial)
    else if code == "I" then Some(Native)
    else if code == "O" then Some(Race.Other)
    else if code == "W" then Some(White)
    else None
  }

  lemma RaceRoundTrip(x: Race)
    ensures ParseRace(RaceCode(x)) == Some(x)
  {
  }

  /** The ZIP constraint `^\d{5}(?:-\d{4})?` as pydantic applies it: a search that
      is anchored only at the start. The optional `-NNNN` group can always match
      empty, so the constraint holds exactly when the string begins with five digits. */
  predicate ZipMatches(s: string) {
    |s| >= 5 && forall i :: 0 <= i < 5 ==> Text.IsDigit(s[i])
  }

  /** A whole ZIP code: five digits, optionally followed by `-` and four digits. */
  predicate FullZip(t: string) {
    || (|t| == 5 && AllDigits(t))
    || (|t| == 10 && AllDigits(t[..5]) && t[5] == '-' && AllDigits(t[6..]))
  }

  /** The constraint is a search anchored at the start: it holds exactly when some
      prefix of the string is a whole ZIP code. */
  lemma ZipSearchSemantics(s: string)
    ensures ZipMatches(s) <==> exists k :: 0 <= k <= |s| && FullZip(s[..k])
  {
    if ZipMatches(s) {
      assert FullZip(s[..5]);
    }
    if k :| 0 <= k <= |s| && FullZip(s[..k]) {
      assert forall i :: 0 <= i < 5 ==> s[..k][i] == s[i];
    }
  }

  /** What coercion depends on besides the raw record: the state lookup table and
      pydantic's datetime parser (a partial function, `None` where it rejects). The
      parser is only ever shown a string or a number. */
  datatype Env = Env(states: Validators.StateTable, parseDate: Json -> Option<DateTime>)

  /** The environment in which text of the form `MM/DD/YYYY` is read by `convert_date`
      before pydantic's parser sees it; every other value goes to pydantic's parser. */
  function WithConvertDate(env: Env): (r: Env)
    ensures r.states == env.states
    ensures forall s :: ConvertDate(s).Some? ==> r.parseDate(Str(s)) == ConvertDate(s)
    ensures forall v: Json :: !(v.Str? && ConvertDate(v.s).Some?) ==> r.parseDate(v) == env.parseDate(v)
  {
    Env(env.states, (v: Json) => if v.Str? && ConvertDate(v.s).Some? then ConvertDate(v.s) else env.parseDate(v))
  }

  /** With `convert_date` in front, every date `MM/DD/YYYY` can spell is read from its
      spelling, whatever pydantic's parser makes of it. */
  lemma WithConvertDateReadsDates(env: Env, d: DateTime)
    requires Writable(d)
    ensures WithConvertDate(env).parseDate(Str(FormatDate(d))) == Some(d)
  {
    ConvertFormat(d);
  }

  /** The target type a field is coerced to. */
  datatype Kind = PlainString | SexEnum | RaceEnum | Moment | StateName | ZipCode

  /** A coerced field value. */
  datatype Value = TextVal(text: string) | SexVal(sex: Sex) | RaceVal(race: Race) | DateVal(date: DateTime)

  /** The type of value each kind produces. */
  predicate Holds(k: Kind, v: Value) {
    match k
    case PlainString => v.TextVal?
    case SexEnum => v.SexVal?
    case RaceEnum => v.RaceVal?
    case Moment => v.DateVal?
    case StateName => v.TextVal?
    case ZipCode => v.TextVal?
  }

  /** The fields of a booking, in declaration order. */
  datatype Field =
    | BookingId | PersonId | BookingNum | BookingDate | ReleaseDate | HeldFor
    | FirstName | MiddleName | LastName | SexField | RaceField | Classification
    | Address | City | StateField | Zipcode | Charges | BirthDate

  /** One row of the descriptor table. */
  datatype Descriptor = Descriptor(name: string, alias: string, kind: Kind, annotation: Utils.Annotation)

  /** The descriptor table: canonical name, the one key the field is read from, target
      type and annotation as pydantic reports it (an `Annotated` wrapper around the
      whole annotation is stripped, one inside a union is kept). */
  function Describe(f: Field): Descriptor {
    var str := Utils.Plain("str");
    var datetime := Utils.Plain("datetime");
    match f
    case BookingId => Descriptor("booking_id", "BookingID", PlainString, str)
    case PersonId => Descriptor("person_id", "InmateID", PlainString, str)
    case BookingNum => Descriptor("booking_num", "BookingNum", PlainString, str)
    case BookingDate => Descriptor("booking_date", "BookingDate", Moment, datetime)
    case ReleaseDate => Descriptor("release_date", "ReleaseDate", Moment, Utils.Union([datetime, Utils.NoneType]))
    case HeldFor => Descriptor("held_for", "heldfor", PlainString, Utils.Union([str, Utils.NoneType]))
    case FirstName => Descriptor("first_name", "FName", PlainString, str)
    case MiddleName => Descriptor("middle_name", "MName", PlainString, Utils.Union([str, Utils.NoneType]))
    case LastName => Descriptor("last_name", "LName", PlainString, str)
    case SexField => Descriptor("sex", "Sex", SexEnum, Utils.Plain("Sex"))
    case RaceField => Descriptor("race", "Race", RaceEnum, Utils.Plain("Race"))
    case Classification => Descriptor("classification", "Classification", PlainString, str)
    case Address => Descriptor("address", "Address", PlainString, str)
    case City => Descriptor("city", "City", PlainString, str)
    case StateField => Descriptor("state", "State", StateName, str)
    case Zipcode => Descriptor("zipcode", "Zip", ZipCode, Utils.Union([Utils.Annotated(str), Utils.NoneType]))
    case Charges => Descriptor("charges", "Charges", PlainString, str)
    case BirthDate => Descriptor("birth_date", "dob", Moment, datetime)
  }

  /** The target kinds of the table: the three `dt.datetime` fields are dates, and
      `Sex`, `Race`, `State` and `ZipCode` each type exactly one field; every other
      field is a plain string. */
  lemma DescribeKinds(f: Field)
    ensures Describe(f).kind == Moment <==> f in {BookingDate, ReleaseDate, BirthDate}
    ensures Describe(f).kind == SexEnum <==> f == SexField
    ensures Describe(f).kind == RaceEnum <==> f == RaceField
    ensures Describe(f).kind == StateName <==> f == StateField
    ensures Describe(f).kind == ZipCode <==> f == Zipcode
  {
  }

  function Alias(f: Field): string {
    Describe(f).alias
  }

  /** A field is optional when its annotation allows `None`. */
  predicate Optional(f: Field) {
    Utils.AllowsNone(Describe(f).annotation)
  }

  /** The optional fields are exactly the four annotated `... | None`. */
  lemma OptionalFields(f: Field)
    ensures Optional(f) <==> f in {ReleaseDate, HeldFor, MiddleName, Zipcode}
  {
    match f
    case ReleaseDate => assert Describe(f).annotation.args[1] == Utils.NoneType;
    case HeldFor => assert Describe(f).annotation.args[1] == Utils.NoneType;
    case MiddleName => assert Describe(f).annotation.args[1] == Utils.NoneType;
    case Zipcode => assert Describe(f).annotation.args[1] == Utils.NoneType;
    case _ =>
  }

  /** Every field is read from its own key. */
  lemma AliasesDistinct(f: Field, g: Field)
    requires f != g
    ensures Alias(f) != Alias(g)
  {
  }

  /** All fields in declaration order; pydantic reports errors in this order. */
  const Fields: seq<Field> := [
    BookingId, PersonId, BookingNum, BookingDate, ReleaseDate, HeldFor,
    FirstName, MiddleName, LastName, SexField, RaceField, Classification,
    Address, City, StateField, Zipcode, Charges, BirthDate]

  /** Every field has its place in `Fields`. */
  function Index(f: Field): (i: nat)
    ensures i < |Fields| && Fields[i] == f
  {
    match f
    case BookingId => 0 case PersonId => 1 case BookingNum => 2 case BookingDate => 3
    case ReleaseDate => 4 case HeldFor => 5 case FirstName => 6 case MiddleName => 7
    case LastName => 8 case SexField => 9 case RaceField => 10 case Classification => 11
    case Address => 12 case City => 13 case StateField => 14 case Zipcode => 15
    case Charges => 16 case BirthDate => 17
  }

  /** The error pydantic records when the value of the field read from `loc` does not
      validate. */
  function Reject(loc: string): Exception {
    ValidationError([ErrorDetail(loc, Invalid)])
  }

  /** Validation of a value against a field's target type (without `None`). Strings
      are taken as they are, never trimmed; `State` first requires a string and then
      runs `validate_state`, whose `ValueError` pydantic reports as a validation
      error. */
  function Convert(k: Kind, env: Env, v: Json, loc: string): (r: Result<Value, Exception>)
    ensures r.Success? ==> Holds(k, r.value)
    ensures r.Failure? ==> r.error == Reject(loc)
    ensures k == PlainString ==> (r.Success? <==> v.Str?)
    ensures k == SexEnum ==> (r.Success? <==> v in {Str("M"), Str("F"), Str("X")})
    ensures k == RaceEnum ==> (r.Success? <==> v in {Str("A"), Str("B"), Str("H"), Str("M"), Str("I"), Str("O"), Str("W")})
    ensures k == Moment ==> (r.Success? <==> (v.Str? || v.Num?) && env.parseDate(v).Some?)
    ensures r.Success? && k == Moment ==> r.value == DateVal(env.parseDate(v).value)
    ensures k == StateName ==> (r.Success? <==> v.Str? && v.s in env.states)
    ensures k == ZipCode ==> (r.Success? <==> v.Str? && ZipMatches(v.s))
    ensures r.Success? && k in {PlainString, ZipCode} ==> r.value == TextVal(v.s)
    ensures r.Success? && k == StateName ==> r.value == TextVal(env.states[v.s].abbr)
    ensures r.Success? && k == SexEnum ==> r.value == SexVal(ParseSex(v.s).value)
    ensures r.Success? && k == RaceEnum ==> r.value == RaceVal(ParseRace(v.s).value)
  {
    match k
    case PlainString =>
      if v.Str? then Success(TextVal(v.s)) else Failure(Reject(loc))
    case SexEnum =>
      if v.Str? && ParseSex(v.s).Some? then Success(SexVal(ParseSex(v.s).value)) else Failure(Reject(loc))
    case RaceEnum =>
      if v.Str? && ParseRace(v.s).Some? then Success(RaceVal(ParseRace(v.s).value)) else Failure(Reject(loc))
    case Moment =>
      if !(v.Str? || v.Num?) then Failure(Reject(loc))
      else
      (match env.parseDate(v)
       case Some(d) => Success(DateVal(d))
       case None => Failure(Reject(loc)))
    case StateName =>
      if !v.Str? then Failure(Reject(loc))
      else
        (match Validators.ValidateState(env.states, v.s)
         case Success(abbr) => Success(TextVal(abbr))
         case Failure(_) => Failure(Reject(loc)))
    case ZipCode =>
      if v.Str? && ZipMatches(v.s) then Success(TextVal(v.s)) else Failure(Reject(loc))
  }

  /** The validator pydantic builds for the field's full annotation (the `handler` of
      the wrap validator): for `T | None`, `None` is accepted as absent; anything else
      is kept exactly when the target type accepts it, and a rejection is always a
      validation error located at the field's key. */
  function Handler(f: Field, env: Env, v: Json): (r: Result<Option<Value>, Exception>)
    ensures Optional(f) && v == Null ==> r == Success(None)
    ensures !(Optional(f) && v == Null) ==>
      (r.Success? <==> Convert(Describe(f).kind, env, v, Alias(f)).Success?)
    ensures r.Success? && r.value.Some? ==> Holds(Describe(f).kind, r.value.value)
    ensures !(Optional(f) && v == Null) && r.Success? ==>
      r.value == Some(Convert(Describe(f).kind, env, v, Alias(f)).value)
    ensures r.Failure? ==> r.error == Reject(Alias(f))
  {
    if Optional(f) && v == Null then Success(None)
    else
      match Convert(Describe(f).kind, env, v, Alias(f))
      case Success(x) => Success(Some(x))
      case Failure(e) => Failure(e)
  }

  function Flatten<T>(r: Result<Option<Option<T>>, Exception>): Result<Option<T>, Exception> {
    match r
    case Success(Some(o)) => Success(o)
    case Success(None) => Success(None)
    case Failure(e) => Failure(e)
  }

  /** The `soft_validate` wrap validator of `BookingItem`: an optional field maps `""`
      to `None` without running the handler and otherwise goes through
      `validators.soft_validate`; a required field runs the handler bare. So an
      optional field never fails, and a required one fails exactly when its type
      rejects the value, with a validation error at its key. */
  function WrapValidate(f: Field, env: Env, v: Json): (r: Result<Option<Value>, Exception>)
    ensures Optional(f) ==>
      r == if v == Str("") || v == Null || Convert(Describe(f).kind, env, v, Alias(f)).Failure?
           then Success(None)
           else Success(Some(Convert(Describe(f).kind, env, v, Alias(f)).value))
    ensures !Optional(f) ==>
      r == if Convert(Describe(f).kind, env, v, Alias(f)).Success?
           then Success(Some(Convert(Describe(f).kind, env, v, Alias(f)).value))
           else Failure(Reject(Alias(f)))
  {
    if Optional(f) then
      if v == Str("") then Success(None)
      else Flatten(Validators.SoftValidate(v, (x: Json) => Handler(f, env, x)))
    else Handler(f, env, v)
  }

  /** The outcome for one field of the raw record: missing when its key is absent,
      otherwise what the wrap validator makes of the key's value. */
  function CoerceField(f: Field, raw: map<string, Json>, env: Env): (r: Result<Option<Value>, ErrorKind>)
    ensures r == Failure(Missing) <==> Alias(f) !in raw
    ensures r == Failure(Invalid) ==> !Optional(f)
    ensures r.Success? && r.value.None? ==> Optional(f)
    ensures r.Success? && r.value.Some? ==> Holds(Describe(f).kind, r.value.value)
  {
    if Alias(f) !in raw then Failure(Missing)
    else
      match WrapValidate(f, env, raw[Alias(f)])
      case Success(o) => Success(o)
      case Failure(_) => Failure(Invalid)
  }

  /** A present optional field never fails: `""` and `null` become absent without
      regard to the coercer, a value the coercer accepts is kept, and a value it
      rejects becomes absent. */
  lemma OptionalOutcome(f: Field, raw: map<string, Json>, env: Env)
    requires Optional(f) && Alias(f) in raw
    ensures var v := raw[Alias(f)];
      && (v == Str("") || v == Null ==> CoerceField(f, raw, env) == Success(None))
      && (v != Str("") && v != Null && Convert(Describe(f).kind, env, v, Alias(f)).Success? ==>
            CoerceField(f, raw, env) == Success(Some(Convert(Describe(f).kind, env, v, Alias(f)).value)))
      && (v != Str("") && Convert(Describe(f).kind, env, v, Alias(f)).Failure? ==>
            CoerceField(f, raw, env) == Success(None))
  {
  }

  /** An optional field whose value is `""` is absent whatever the coercer would say. */
  lemma EmptyOptionalSkipsCoercer(f: Field, raw: map<string, Json>, env: Env, env': Env)
    requires Optional(f) && Alias(f) in raw && raw[Alias(f)] == Str("")
    ensures CoerceField(f, raw, env) == CoerceField(f, raw, env') == Success(None)
  {
  }

  /** A present required field always goes to its coercer, `""` included: it is kept
      when the coercer accepts it and fails as invalid otherwise. */
  lemma RequiredOutcome(f: Field, raw: map<string, Json>, env: Env)
    requires !Optional(f) && Alias(f) in raw
    ensures var c := Convert(Describe(f).kind, env, raw[Alias(f)], Alias(f));
      && (c.Success? ==> CoerceField(f, raw, env) == Success(Some(c.value)))
      && (c.Failure? ==> CoerceField(f, raw, env) == Failure(Invalid))
  {
  }

  /** The validation errors of the fields `fs`, in order: one per failing field. */
  function FieldErrors(fs: seq<Field>, raw: map<string, Json>, env: Env): (r: seq<ErrorDetail>)
    ensures r == [] <==> forall i :: 0 <= i < |fs| ==> CoerceField(fs[i], raw, env).Success?
    ensures forall i :: 0 <= i < |fs| && CoerceField(fs[i], raw, env).Failure? ==>
      ErrorDetail(Alias(fs[i]), CoerceField(fs[i], raw, env).error) in r
    ensures forall d :: d in r ==>
      (exists i :: 0 <= i < |fs| && CoerceField(fs[i], raw, env).Failure? &&
         d == ErrorDetail(Alias(fs[i]), CoerceField(fs[i], raw, env).error))
  {
    if |fs| == 0 then []
    else
      var rest := FieldErrors(fs[1..], raw, env);
      assert forall i :: 1 <= i < |fs| ==> fs[i] == fs[1..][i - 1];
      match CoerceField(fs[0], raw, env)
      case Success(_) => rest
      case Failure(k) => [ErrorDetail(Alias(fs[0]), k)] + rest
  }

  /** A booking record: the result of a successful coercion. */
  datatype BookingItem = BookingItem(
    bookingId: string,
    personId: string,
    bookingNum: string,
    bookingDate: DateTime,
    releaseDate: Option<DateTime>,
    heldFor: Option<string>,
    firstName: string,
    middleName: Option<string>,
    lastName: string,
    sex: Sex,
    race: Race,
    classification: string,
    address: string,
    city: string,
    state: string,
    zipcode: Option<string>,
    charges: string,
    birthDate: DateTime)

  /** A field of a record, as a coerced value (`None` when absent). */
  function Get(b: BookingItem, f: Field): Option<Value> {
    match f
    case BookingId => Some(TextVal(b.bookingId))
    case PersonId => Some(TextVal(b.personId))
    case BookingNum => Some(TextVal(b.bookingNum))
    case BookingDate => Some(DateVal(b.bookingDate))
    case ReleaseDate => if b.releaseDate.Some? then Some(DateVal(b.releaseDate.value)) else None
    case HeldFor => if b.heldFor.Some? then Some(TextVal(b.heldFor.value)) else None
    case FirstName => Some(TextVal(b.firstName))
    case MiddleName => if b.middleName.Some? then Some(TextVal(b.middleName.value)) else None
    case LastName => Some(TextVal(b.lastName))
    case SexField => Some(SexVal(b.sex))
    case RaceField => Some(RaceVal(b.race))
    case Classification => Some(TextVal(b.classification))
    case Address => Some(TextVal(b.address))
    case City => Some(TextVal(b.city))
    case StateField => Some(TextVal(b.state))
    case Zipcode => if b.zipcode.Some? then Some(TextVal(b.zipcode.value)) else None
    case Charges => Some(TextVal(b.charges))
    case BirthDate => Some(DateVal(b.birthDate))
  }

  /** A value fits a field when it has the field's type, and is absent only if the
      field is optional (the four fields listed, by `OptionalFields`; the set is
      spelled out so that the record's proofs need not unfold the annotations). */
  predicate Fits(f: Field, o: Option<Value>) {
    && (o.None? ==> f in {ReleaseDate, HeldFor, MiddleName, Zipcode})
    && (o.Some? ==> Holds(Describe(f).kind, o.value))
  }

  function TextOf(o: Option<Value>): string
    requires o.Some? && o.value.TextVal?
  {
    o.value.text
  }

  function DateOf(o: Option<Value>): DateTime
    requires o.Some? && o.value.DateVal?
  {
    o.value.date
  }

  function MaybeText(o: Option<Value>): Option<string>
    requires o.Some? ==> o.value.TextVal?
  {
    if o.Some? then Some(o.value.text) else None
  }

  function MaybeDate(o: Option<Value>): Option<DateTime>
    requires o.Some? ==> o.value.DateVal?
  {
    if o.Some? then Some(o.value.date) else None
  }

  /** The record whose fields hold the given values. */
  function Assemble(vals: Field -> Option<Value>): BookingItem
    requires forall f :: Fits(f, vals(f))
  {
    assert Fits(BookingId, vals(BookingId)) && Fits(PersonId, vals(PersonId));
    assert Fits(BookingNum, vals(BookingNum)) && Fits(BookingDate, vals(BookingDate));
    assert Fits(ReleaseDate, vals(ReleaseDate)) && Fits(HeldFor, vals(HeldFor));
    assert Fits(FirstName, vals(FirstName)) && Fits(MiddleName, vals(MiddleName));
    assert Fits(LastName, vals(LastName)) && Fits(SexField, vals(SexField));
    assert Fits(RaceField, vals(RaceField)) && Fits(Classification, vals(Classification));
    assert Fits(Address, vals(Address)) && Fits(City, vals(City));
    assert Fits(StateField, vals(StateField)) && Fits(Zipcode, vals(Zipcode));
    assert Fits(Charges, vals(Charges)) && Fits(BirthDate, vals(BirthDate));
    BookingItem(
      bookingId := TextOf(vals(BookingId)),
      personId := TextOf(vals(PersonId)),
      bookingNum := TextOf(vals(BookingNum)),
      bookingDate := DateOf(vals(BookingDate)),
      releaseDate := MaybeDate(vals(ReleaseDate)),
      heldFor := MaybeText(vals(HeldFor)),
      firstName := TextOf(vals(FirstName)),
      middleName := MaybeText(vals(MiddleName)),
      lastName := TextOf(vals(LastName)),
      sex := vals(SexField).value.sex,
      race := vals(RaceField).value.race,
      classification := TextOf(vals(Classification)),
      address := TextOf(vals(Address)),
      city := TextOf(vals(City)),
      state := TextOf(vals(StateField)),
      zipcode := MaybeText(vals(Zipcode)),
      charges := TextOf(vals(Charges)),
      birthDate := DateOf(vals(BirthDate)))
  }

  /** Reading a field of the assembled record gives back the value it was built from. */
  lemma GetAssemble(vals: Field -> Option<Value>, f: Field)
    requires forall g :: Fits(g, vals(g))
    ensures Get(Assemble(vals), f) == vals(f)
  {
    assert Fits(f, vals(f));
  }

  /** A successful field outcome fits its field. */
  lemma CoerceFieldFits(f: Field, raw: map<string, Json>, env: Env)
    requires CoerceField(f, raw, env).Success?
    ensures Fits(f, CoerceField(f, raw, env).value)
  {
    OptionalFields(f);
  }

  /** The value a field contributes to the record (absent when it failed). */
  function Outcome(f: Field, raw: map<string, Json>, env: Env): Option<Value> {
    match CoerceField(f, raw, env)
    case Success(o) => o
    case Failure(_) => None
  }

  /** Every failing field is reported, and nothing is reported when all succeed. */
  lemma ErrorsReportFailures(raw: map<string, Json>, env: Env)
    ensures FieldErrors(Fields, raw, env) == [] <==> forall f :: CoerceField(f, raw, env).Success?
    ensures forall f :: CoerceField(f, raw, env).Failure? ==>
      ErrorDetail(Alias(f), CoerceField(f, raw, env).error) in FieldErrors(Fields, raw, env)
    ensures forall d :: d in FieldErrors(Fields, raw, env) ==>
      (exists f :: CoerceField(f, raw, env).Failure? && d == ErrorDetail(Alias(f), CoerceField(f, raw, env).error))
  {
    var errs := FieldErrors(Fields, raw, env);
    forall f | CoerceField(f, raw, env).Failure?
      ensures ErrorDetail(Alias(f), CoerceField(f, raw, env).error) in errs
    {
      var i := Index(f);
      assert CoerceField(Fields[i], raw, env).Failure?;
    }
    forall d | d in errs
      ensures exists f :: CoerceField(f, raw, env).Failure? && d == ErrorDetail(Alias(f), CoerceField(f, raw, env).error)
    {
      var i :| 0 <= i < |Fields| && CoerceField(Fields[i], raw, env).Failure? &&
        d == ErrorDetail(Alias(Fields[i]), CoerceField(Fields[i], raw, env).error);
      var f := Fields[i];
      assert CoerceField(f, raw, env).Failure?;
    }
    if errs == [] {
      forall f ensures CoerceField(f, raw, env).Success? {
        var i := Index(f);
        assert CoerceField(Fields[i], raw, env).Success?;
      }
    }
  }

  /** When every field succeeds, the outcomes fit the fields. */
  lemma OutcomesFit(raw: map<string, Json>, env: Env)
    requires forall f :: CoerceField(f, raw, env).Success?
    ensures forall f :: Fits(f, Outcome(f, raw, env))
  {
    forall f ensures Fits(f, Outcome(f, raw, env)) {
      CoerceFieldFits(f, raw, env);
    }
  }

  /** `BookingItem(**raw)`: every field is validated; the record is built when none
      failed, otherwise a `ValidationError` lists every failing field in declaration
      order. Keys that are no field's alias are ignored. */
  function Coerce(raw: map<string, Json>, env: Env): (r: Result<BookingItem, Exception>)
    ensures r.Success? <==> forall f :: CoerceField(f, raw, env).Success?
    ensures r.Success? ==> forall f :: Get(r.value, f) == CoerceField(f, raw, env).value
    ensures r.Failure? ==> r.error.ValidationError? && r.error.errors != []
    ensures r.Failure? ==> forall f :: CoerceField(f, raw, env).Failure? ==>
      ErrorDetail(Alias(f), CoerceField(f, raw, env).error) in r.error.errors
    ensures r.Failure? ==> forall d :: d in r.error.errors ==>
      (exists f :: CoerceField(f, raw, env).Failure? && d == ErrorDetail(Alias(f), CoerceField(f, raw, env).error))
  {
    var errors := FieldErrors(Fields, raw, env);
    ErrorsReportFailures(raw, env);
    if errors != [] then Failure(ValidationError(errors))
    else
      var vals := (f: Field) => Outcome(f, raw, env);
      OutcomesFit(raw, env);
      var b := Assemble(vals);
      assert forall f :: Get(b, f) == CoerceField(f, raw, env).value by {
        forall f ensures Get(b, f) == CoerceField(f, raw, env).value {
          GetAssemble(vals, f);
        }
      }
      Success(b)
  }

  /** Python truthiness of an optional string: present and non-empty. */
  predicate Truthy(o: Option<string>) {
    o.Some? && o.value != ""
  }

  /** The `full_name` property: first, middle and last name joined by single spaces,
      the middle name left out when it is absent or empty. */
  function FullName(b: BookingItem): (r: string)
    ensures r == Text.JoinWords([b.firstName] + (if Truthy(b.middleName) then [b.middleName.value] else []) + [b.lastName])
    ensures |r| == |b.firstName| + |b.lastName| + 1 + (if Truthy(b.middleName) then |b.middleName.value| + 1 else 0)
  {
    if Truthy(b.middleName) then
      var words := [b.firstName] + [b.middleName.value] + [b.lastName];
      assert words[1..] == [b.middleName.value, b.lastName];
      assert words[1..][1..] == [b.lastName];
      assert Text.JoinWords(words[1..][1..]) == b.lastName;
      assert Text.JoinWords(words[1..]) == b.middleName.value + " " + b.lastName;
      assert Text.JoinWords(words) == b.firstName + " " + (b.middleName.value + " " + b.lastName);
      b.firstName + " " + b.middleName.value + " " + b.lastName
    else
      var words := [b.firstName, b.lastName];
      assert words[1..] == [b.lastName];
      b.firstName + " " + b.lastName
  }

  /** The text `mailing_address` strips: street line, newline, then
      `city, state zip` (an empty string in place of an absent ZIP). */
  function AddressLines(b: BookingItem): string {
    b.address + "\n" + b.city + ", " + b.state + " " + (if b.zipcode.Some? then b.zipcode.value else "")
  }

  /** The `mailing_address` property: the address lines with surrounding whitespace
      removed and nothing else changed. */
  function MailingAddress(b: BookingItem): (r: string)
    ensures Text.Trimmed(r)
    ensures var lines := AddressLines(b); var i := Text.LeadingSpace(lines);
      && i + |r| <= |lines|
      && r == lines[i..i + |r|]
      && (forall k :: 0 <= k < i ==> Text.IsSpace(lines[k]))
      && (forall k :: i + |r| <= k < |lines| ==> Text.IsSpace(lines[k]))
  {
    Text.Strip(AddressLines(b))
  }
}

=== FILE: json.dfy ===
/** The decoded JSON tree a Scrapy response exposes through `response.json()`. */
module JsonTree {

  /** A JSON value as Python's `json` module decodes it: `None`, `bool`, `int`, `str`,
      `list` and `dict` (object keys are always strings). */
  datatype Json =
    | Null
    | Bool(b: bool)
    | Num(n: int)
    | Str(s: string)
    | Arr(elems: seq<Json>)
    | Obj(fields: map<string, Json>)
  {
    /** A value that is not a container. */
    predicate IsScalar() {
      !Arr? && !Obj?
    }
  }
}

=== FILE: spider_properties.dfy ===
/** Properties of the booking spider's callbacks that relate several calls, or a callback
    to the responses a roster can produce. */
module SpiderProperties {
  import opened Wrappers
  import opened JsonTree
  import opened Errors
  import Items
  import opened Bookings
  import Text

  /** Every row names a booking. */
  predicate AllNamed(rows: seq<Json>) {
    forall i :: 0 <= i < |rows| ==> HasBookingId(rows[i])
  }

  /** A roster response whose `query` array holds `rows`. */
  function RosterOf(rows: seq<Json>): Response {
    TextResponse(Some(Obj(map["query" := Arr(rows)])))
  }

  /** With every row named, the loop yields one request per row, in row order, and
      finishes without raising. */
  lemma OneRequestPerRow(rows: seq<Json>)
    requires AllNamed(rows)
    ensures RequestsFor(rows).raised.None?
    ensures |RequestsFor(rows).items| == |rows|
    ensures forall i :: 0 <= i < |rows| ==>
      RequestsFor(rows).items[i] == GetBooking(rows[i].fields["BookingID"])
  {
  }

  /** A named row contributes its request and hands the rest of the rows on. */
  lemma NamedRowFirst(rows: seq<Json>)
    requires |rows| > 0 && HasBookingId(rows[0])
    ensures RequestsFor(rows).items == [GetBooking(rows[0].fields["BookingID"])] + RequestsFor(rows[1..]).items
    ensures RequestsFor(rows).raised == RequestsFor(rows[1..]).raised
  {
  }

  /** Prepending to a concatenation, regrouped; kept apart so that the fact is proved
      away from the facts about the rows. */
  lemma ConsAssociates<T>(head: seq<T>, y: seq<T>, z: seq<T>)
    ensures head + (y + z) == head + y + z
  {
  }

  /** Rows are handled one after the other: the requests for `a + b` are those for `a`
      followed by those for `b`, when no row of `a` raises. */
  lemma {:induction false} RequestsForAppend(a: seq<Json>, b: seq<Json>)
    requires AllNamed(a)
    ensures RequestsFor(a + b).items == RequestsFor(a).items + RequestsFor(b).items
    ensures RequestsFor(a + b).raised == RequestsFor(b).raised
  {
    if |a| > 0 {
      var head := [GetBooking(a[0].fields["BookingID"])];
      assert (a + b)[0] == a[0];
      assert (a + b)[1..] == a[1..] + b;
      NamedRowFirst(a + b);
      NamedRowFirst(a);
      assert AllNamed(a[1..]) by {
        forall i | 0 <= i < |a| - 1 ensures HasBookingId(a[1..][i]) {
          assert a[1..][i] == a[i + 1];
        }
      }
      RequestsForAppend(a[1..], b);
      var y, z := RequestsFor(a[1..]).items, RequestsFor(b).items;
      ConsAssociates(head, y, z);
      calc {
        RequestsFor(a + b).items;
        head + RequestsFor(a[1..] + b).items;
        head + (y + z);
        head + y + z;
        RequestsFor(a).items + z;
      }
    } else {
      assert a + b == b;
    }
  }

  /** The first row without a booking id stops the loop: the rows before it keep their
      requests, and its `KeyError` or `TypeError` is what the loop raises. */
  lemma BadRowStops(rows: seq<Json>, k: nat)
    requires k < |rows| && AllNamed(rows[..k]) && !HasBookingId(rows[k])
    ensures |RequestsFor(rows).items| == k
    ensures RequestsFor(rows).raised == Some(BookingIdOf(rows[k]).error)
    ensures forall i :: 0 <= i < k ==> RequestsFor(rows).items[i] == GetBooking(rows[i].fields["BookingID"])
  {
    assert rows == rows[..k] + rows[k..];
    RequestsForAppend(rows[..k], rows[k..]);
    OneRequestPerRow(rows[..k]);
    assert rows[k..][0] == rows[k];
  }

  /** `parse` over a roster whose rows are all named yields one request per row, each
      for that row's booking id and handled by `parse_booking`. */
  lemma ParseRosterRows(rows: seq<Json>)
    requires AllNamed(rows)
    ensures ParseRoster(RosterOf(rows)).raised.None?
    ensures |ParseRoster(RosterOf(rows)).items| == |rows|
    ensures forall i :: 0 <= i < |rows| ==>
      ParseRoster(RosterOf(rows)).items[i] == Request(Bookie(rows[i].fields["BookingID"]), ParseBooking)
  {
    OneRequestPerRow(rows);
  }

  /** The single-row roster `{"query": [{"BookingID": "13826"}]}` yields exactly one
      request, for the detail page of booking 13826. */
  lemma RosterExample()
    ensures var r := ParseRoster(RosterOf([Obj(map["BookingID" := Str("13826")])]));
      && r.raised.None? && |r.items| == 1
      && r.items[0] == Request(Bookie(Str("13826")), ParseBooking)
      && Url(r.items[0].target) == BookieUrl + "13826"
  {
    ParseRosterRows([Obj(map["BookingID" := Str("13826")])]);
  }

  /** Distinct string booking ids give distinct detail URLs. */
  lemma BookieUrlInjective(a: string, b: string)
    ensures Url(GetBooking(Str(a)).target) == Url(GetBooking(Str(b)).target) <==> a == b
  {
    if Url(GetBooking(Str(a)).target) == Url(GetBooking(Str(b)).target) {
      assert a == Url(GetBooking(Str(a)).target)[|BookieUrl|..];
    }
  }

  /** A numeric id is inserted as its decimal spelling, without padding: the detail
      URL of booking `n` is fixed by `n` alone. */
  lemma NumericIdUrl(n: nat)
    ensures Url(GetBooking(Num(n)).target) == BookieUrl + Text.NatText(n)
  {
    var u := Url(GetBooking(Num(n)).target);
    Text.NatTextCanonical(u[|BookieUrl|..]);
    assert u == u[..|BookieUrl|] + u[|BookieUrl|..];
  }

  /** A booking response without a `bookie` key raises `KeyError` and yields nothing. */
  lemma MissingBookieRaises(fields: map<string, Json>, env: Items.Env)
    requires "bookie" !in fields
    ensures ParseBookingResponse(TextResponse(Some(Obj(fields))), env) == Yielded([], Some(KeyError(Str("bookie"))))
  {
  }

  /** A booking response whose `bookie` list is empty raises `IndexError` and yields
      nothing. */
  lemma EmptyBookieRaises(fields: map<string, Json>, env: Items.Env)
    requires "bookie" in fields && fields["bookie"] == Arr([])
    ensures ParseBookingResponse(TextResponse(Some(Obj(fields))), env) == Yielded([], Some(IndexError))
  {
  }

  /** A booking response whose `bookie` list starts with a record yields exactly the
      record coerced from that element, or raises coercion's `ValidationError`; later
      elements are never read. */
  lemma BookieHeadCoerced(fields: map<string, Json>, person: map<string, Json>, rest: seq<Json>, env: Items.Env)
    requires "bookie" in fields && fields["bookie"] == Arr([Obj(person)] + rest)
    ensures var r := ParseBookingResponse(TextResponse(Some(Obj(fields))), env);
      match Items.Coerce(person, env)
      case Success(b) => r == Yielded([b], None)
      case Failure(e) => r == Yielded([], Some(e)) && e.ValidationError?
  {
    assert ([Obj(person)] + rest)[0] == Obj(person);
  }

  /** The crawl starts at the roster: the one start request is handled by `parse`,
      so its response yields only requests for booking detail pages, each handled by
      `parse_booking`. */
  lemma StartFollowsBookings(resp: Response, env: Items.Env)
    ensures |StartRequests| == 1 && StartRequests[0].target == Roster
    ensures var r := Dispatch(StartRequests[0], resp, env);
      forall i :: 0 <= i < |r.items| ==>
        && r.items[i].Follow? && r.items[i].request.callback == ParseBooking
        && r.items[i].request in ParseRoster(resp).items
  {
    var r := Dispatch(StartRequests[0], resp, env);
    forall i | 0 <= i < |r.items|
      ensures r.items[i].Follow? && r.items[i].request.callback == ParseBooking
      ensures r.items[i].request in ParseRoster(resp).items
    {
      assert r.items[i] == Follow(ParseRoster(resp).items[i]);
    }
  }

  /** The crawl is two levels deep: every request `parse` yields goes to
      `parse_booking`, which yields only records, never further requests. */
  lemma CrawlEndsAtRecords(resp: Response, req: Request, resp': Response, env: Items.Env)
    requires req in ParseRoster(resp).items
    ensures forall i :: 0 <= i < |Dispatch(req, resp', env).items| ==> Dispatch(req, resp', env).items[i].Emit?
    ensures |Dispatch(req, resp', env).items| <= 1
  {
  }
}

=== FILE: text.dfy ===
/** The handful of Python `str` operations the computed record fields and the request
    URLs rely on: `str.isspace`, `str.strip`, `str(int)` and `" ".join`. */
module Text {

  /** `c.isspace()` in Python: the ASCII whitespace and separator controls plus the
      Unicode space separators. */
  predicate IsSpace(c: char) {
    || c == ' '
    || ('\U{9}' <= c <= '\U{d}')
    || ('\U{1c}' <= c <= '\U{1f}')
    || c == '\U{85}' || c == '\U{a0}' || c == '\U{1680}'
    || ('\U{2000}' <= c <= '\U{200a}')
    || c == '\U{2028}' || c == '\U{2029}' || c == '\U{202f}' || c == '\U{205f}'
    || c == '\U{3000}'
  }

  /** Among ASCII characters, `isspace` holds for the blank, tab, line feed, vertical
      tab, form feed and carriage return, and the four separator controls `\x1c` to
      `\x1f`; nothing else. */
  lemma IsSpaceAscii(c: char)
    requires c as int < 0x80
    ensures IsSpace(c) <==> c in {' ', '\t', '\n', '\U{b}', '\U{c}', '\r', '\U{1c}', '\U{1d}', '\U{1e}', '\U{1f}'}
  {
  }

  predicate AllSpace(s: string) {
    forall i :: 0 <= i < |s| ==> IsSpace(s[i])
  }

  /** True when `s` neither starts nor ends with whitespace. */
  predicate Trimmed(s: string) {
    |s| == 0 || (!IsSpace(s[0]) && !IsSpace(s[|s| - 1]))
  }

  /** The number of whitespace characters `s` starts with. */
  function LeadingSpace(s: string): (n: nat)
    ensures n <= |s|
    ensures forall k :: 0 <= k < n ==> IsSpace(s[k])
    ensures n < |s| ==> !IsSpace(s[n])
  {
    if |s| == 0 || !IsSpace(s[0]) then 0 else 1 + LeadingSpace(s[1..])
  }

  /** The number of whitespace characters `s` ends with. */
  function TrailingSpace(s: string): (n: nat)
    ensures n <= |s|
    ensures forall k :: |s| - n <= k < |s| ==> IsSpace(s[k])
    ensures n < |s| ==> !IsSpace(s[|s| - n - 1])
  {
    if |s| == 0 || !IsSpace(s[|s| - 1]) then 0 else 1 + TrailingSpace(s[..|s| - 1])
  }

  /** Python's `s.strip()`: `s` with its leading and trailing whitespace removed and
      nothing else changed. */
  function Strip(s: string): (r: string)
    ensures Trimmed(r)
    ensures LeadingSpace(s) + |r| <= |s|
    ensures r == s[LeadingSpace(s)..LeadingSpace(s) + |r|]
    ensures forall k :: 0 <= k < LeadingSpace(s) ==> IsSpace(s[k])
    ensures forall k :: LeadingSpace(s) + |r| <= k < |s| ==> IsSpace(s[k])
  {
    var i := LeadingSpace(s);
    var rest := s[i..];
    var j := TrailingSpace(rest);
    rest[..|rest| - j]
  }

  /** Stripping a trimmed string changes nothing. */
  lemma StripTrimmed(s: string)
    requires Trimmed(s)
    ensures Strip(s) == s
  {
  }

  /** `str.strip` is idempotent. */
  lemma StripIdempotent(s: string)
    ensures Strip(Strip(s)) == Strip(s)
  {
    StripTrimmed(Strip(s));
  }

  /** Whitespace added around a string with a non-blank head and tail is exactly what
      `strip` takes away again. */
  lemma StripPadded(pre: string, s: string, post: string)
    requires AllSpace(pre) && AllSpace(post)
    requires |s| > 0 && !IsSpace(s[0]) && !IsSpace(s[|s| - 1])
    ensures Strip(pre + s + post) == s
  {
    var t := pre + s + post;
    assert t[|pre|..|pre| + |s|] == s;
  }

  /** The decimal digit characters `0`-`9`. */
  predicate IsDigit(c: char) {
    '0' as int <= c as int <= '9' as int
  }

  function DigitChar(d: nat): (c: char)
    requires d < 10
    ensures IsDigit(c) && c as int - '0' as int == d
  {
    (d + '0' as int) as char
  }

  /** The value of a run of decimal digits. */
  function DigitsValue(s: string): nat
    requires forall i :: 0 <= i < |s| ==> IsDigit(s[i])
  {
    if |s| == 0 then 0
    else
      assert IsDigit(s[|s| - 1]);
      10 * DigitsValue(s[..|s| - 1]) + (s[|s| - 1] as int - '0' as int)
  }

  /** Python's `str(n)` for a non-negative integer: its shortest decimal spelling. */
  function NatText(n: nat): (r: string)
    ensures |r| > 0 && forall i :: 0 <= i < |r| ==> IsDigit(r[i])
    ensures n >= 10 ==> r[0] != '0'
    ensures |r| == 1 <==> n < 10
    ensures |r| > 1 ==> r[0] != '0'
  {
    if n < 10 then [DigitChar(n)] else NatText(n / 10) + [DigitChar(n % 10)]
  }

  /** Reading the decimal spelling back gives the number it spells. */
  lemma {:induction false} NatTextRoundTrip(n: nat)
    ensures DigitsValue(NatText(n)) == n
  {
    var r := NatText(n);
    if n >= 10 {
      NatTextRoundTrip(n / 10);
      assert r[..|r| - 1] == NatText(n / 10);
    }
  }

  /** Python's `str(i)` for any integer: a minus sign before the digits of a negative. */
  function IntText(i: int): (r: string)
    ensures |r| > 0
    ensures i < 0 <==> r[0] == '-'
    ensures i >= 0 ==> (forall k :: 0 <= k < |r| ==> IsDigit(r[k])) && DigitsValue(r) == i
    ensures i < 0 ==> (forall k :: 1 <= k < |r| ==> IsDigit(r[k])) && DigitsValue(r[1..]) == -i
    ensures i >= 0 && |r| > 1 ==> r[0] != '0'
    ensures i < 0 && |r| > 2 ==> r[1] != '0'
  {
    NatTextRoundTrip(if i < 0 then -i else i);
    if i < 0 then
      var d := NatText(-i);
      assert ("-" + d)[1..] == d;
      "-" + d
    else NatText(i)
  }

  /** A non-empty run of digits with the value `v` and no leading zero is the decimal
      spelling of `v`: that spelling is the only one without padding. */
  lemma {:induction false} NatTextCanonical(t: string)
    requires |t| > 0 && forall i :: 0 <= i < |t| ==> IsDigit(t[i])
    requires |t| > 1 ==> t[0] != '0'
    ensures NatText(DigitsValue(t)) == t
  {
    var c := t[|t| - 1] as int - '0' as int;
    assert DigitChar(c) == t[|t| - 1];
    if |t| > 1 {
      var init := t[..|t| - 1];
      assert init[0] == t[0];
      NatTextCanonical(init);
      LeadingDigitPositive(init);
      var v := DigitsValue(t);
      assert v == 10 * DigitsValue(init) + c;
      assert v / 10 == DigitsValue(init) && v % 10 == c;
      assert t == init + [t[|t| - 1]];
    }
  }

  /** Digits that do not start with `0` have a positive value. */
  lemma {:induction false} LeadingDigitPositive(t: string)
    requires |t| > 0 && forall i :: 0 <= i < |t| ==> IsDigit(t[i])
    requires t[0] != '0'
    ensures DigitsValue(t) >= 1
  {
    if |t| > 1 {
      var init := t[..|t| - 1];
      assert init[0] == t[0];
      LeadingDigitPositive(init);
    }
  }

  /** Python's `" ".join(words)`. */
  function JoinWords(words: seq<string>): string {
    if |words| == 0 then ""
    else if |words| == 1 then words[0]
    else words[0] + " " + JoinWords(words[1..])
  }
}

=== FILE: utils.dfy ===
/** Utility functions of the scraper: optionality of a type annotation and unwrapping
    of single-element list wrappers (`sheriffwebsites/utils.py`). */
module Utils {
  import opened Wrappers
  import opened JsonTree
  import opened Errors

  /** The shapes of Python type annotation the model needs. `NoneValue` is the literal
      `None` used as an annotation; `NoneType` is the class `type(None)` that
      `get_args` reports inside a union. */
  datatype Annotation =
    | NoneValue
    | NoneType
    | Plain(name: string)
    | Union(args: seq<Annotation>)
    | Annotated(base: Annotation)

  /** `allows_none`: a union (`typing.Union` or `X | Y`) allows `None` exactly when its
      arguments include `NoneType`; any other annotation only when it is `None` itself.
      An `Annotated[...]` wrapper is not a union, whatever it wraps. */
  function AllowsNone(a: Annotation): (r: bool)
    ensures a.Union? ==> (r <==> NoneType in a.args)
    ensures !a.Union? ==> (r <==> a == NoneValue)
  {
    match a
    case Union(args) => NoneType in args
    case _ => a == NoneValue
  }

  /** `Optional[T]`, spelled either way, allows `None` whatever `T` is. */
  lemma OptionalAllowsNone(t: Annotation)
    ensures AllowsNone(Union([t, NoneType]))
    ensures AllowsNone(Union([NoneType, t]))
  {
    assert Union([t, NoneType]).args[1] == NoneType;
  }

  /** A union without `NoneType` does not allow `None`, even when it lists the literal
      `None` (typing never produces that shape, it normalises `None` to `NoneType`). */
  lemma UnionWithoutNoneType(args: seq<Annotation>)
    requires NoneType !in args
    ensures !AllowsNone(Union(args))
  {
  }

  /** Wrapping an optional annotation in `Annotated[...]` hides its `None`: the
      origin of the wrapper is `Annotated`, not a union. */
  lemma AnnotatedHidesNone(t: Annotation)
    ensures AllowsNone(Union([t, NoneType]))
    ensures !AllowsNone(Annotated(Union([t, NoneType])))
  {
    OptionalAllowsNone(t);
  }

  /** `delist_maybe`: a list gives its first element (an empty list raises
      `IndexError`); any other value is returned as is. */
  function DelistMaybe(v: Json): (r: Result<Json, Exception>)
    ensures v.Arr? && |v.elems| > 0 ==> r == Success(v.elems[0])
    ensures v.Arr? && |v.elems| == 0 ==> r == Failure(IndexError)
    ensures !v.Arr? ==> r == Success(v)
  {
    match v
    case Arr(xs) => if |xs| == 0 then Failure(IndexError) else Success(xs[0])
    case _ => Success(v)
  }

  /** Callers need not know whether a source wrapped its object in a one-element
      list: for any non-list value both shapes unwrap to the value itself. */
  lemma DelistEitherShape(x: Json)
    requires !x.Arr?
    ensures DelistMaybe(Arr([x])) == DelistMaybe(x) == Success(x)
  {
  }

  /** Only the first element of a list survives: the rest of the list is dropped. */
  lemma DelistKeepsHead(x: Json, rest: seq<Json>)
    ensures DelistMaybe(Arr([x] + rest)) == Success(x)
  {
  }
}

=== FILE: validators.dfy ===
/** Validators for booking fields (`sheriffwebsites/validators.py`). */
module Validators {
  import opened Wrappers
  import opened Errors

  /** What the `us` library's `lookup` returns for a recognised state. */
  datatype StateInfo = StateInfo(name: string, abbr: string)

  /** The `us.states.lookup` function as a finite table from the candidate strings it
      recognises to the state each one names. */
  type StateTable = map<string, StateInfo>

  /** `validate_state`: the two-letter abbreviation of the state the candidate names,
      or a `ValueError` when the lookup finds nothing. */
  function ValidateState(table: StateTable, candidate: string): (r: Result<string, Exception>)
    ensures candidate in table ==> r == Success(table[candidate].abbr)
    ensures candidate !in table ==> r == Failure(ValueError(candidate + " is not a valid state name."))
  {
    if candidate in table then Success(table[candidate].abbr)
    else Failure(ValueError(candidate + " is not a valid state name."))
  }

  /** A successful result is the abbreviation of some entry of the table; the raw
      candidate is never passed through on its own account. */
  lemma ValidatedIsAbbreviation(table: StateTable, candidate: string)
    requires ValidateState(table, candidate).Success?
    ensures exists k :: k in table && table[k].abbr == ValidateState(table, candidate).value
  {
    assert candidate in table;
  }

  /** A failure is always a `ValueError`, which pydantic turns into a field error. */
  lemma ValidateStateRaisesValueError(table: StateTable, candidate: string)
    requires ValidateState(table, candidate).Failure?
    ensures ValidateState(table, candidate).error.ValueError?
    ensures candidate !in table
  {
  }

  /** The lookup table recognises every abbreviation it hands out, as the same state. */
  ghost predicate AbbreviationsRecognised(table: StateTable) {
    forall k :: k in table ==> table[k].abbr in table && table[table[k].abbr].abbr == table[k].abbr
  }

  /** With such a table, validating an already validated state changes nothing. */
  lemma ValidateStateIdempotent(table: StateTable, candidate: string)
    requires AbbreviationsRecognised(table)
    requires ValidateState(table, candidate).Success?
    ensures ValidateState(table, ValidateState(table, candidate).value) == ValidateState(table, candidate)
  {
    assert candidate in table;
  }

  /** `soft_validate`: the handler's result when it returns, `None` when it raises a
      pydantic `ValidationError`, and any other exception raised unchanged. */
  function SoftValidate<X, Y>(value: X, handler: X -> Result<Y, Exception>): (r: Result<Option<Y>, Exception>)
    ensures handler(value).Success? ==> r == Success(Some(handler(value).value))
    ensures handler(value).Failure? && handler(value).error.ValidationError? ==> r == Success(None)
    ensures handler(value).Failure? && !handler(value).error.ValidationError? ==> r == Failure(handler(value).error)
  {
    match handler(value)
    case Success(y) => Success(Some(y))
    case Failure(e) => if e.ValidationError? then Success(None) else Failure(e)
  }

  /** `soft_validate` never lets a `ValidationError` escape, and whatever it returns
      comes from the handler. */
  lemma SoftValidateAbsorbsOnlyValidation<X, Y>(value: X, handler: X -> Result<Y, Exception>)
    ensures SoftValidate(value, handler).Failure? ==> !SoftValidate(value, handler).error.ValidationError?
    ensures SoftValidate(value, handler).Failure? ==> SoftValidate(value, handler) == Failure(handler(value).error)
    ensures SoftValidate(value, handler) == Success(None) ==> handler(value).Failure?
  {
  }
}

=== FILE: wrappers.dfy ===
/** `Option` stands for Python's `X | None`, and `Result` for a call that either
    returns a value or raises an exception; both propagate their failure case
    through `:-`. */
module Wrappers {

  datatype Option<+T> = None | Some(value: T) {

    predicate IsFailure() {
      None?
    }

    function PropagateFailure<U>(): Option<U>
      requires None?
    {
      None
    }

    function Extract(): T
      requires Some?
    {
      value
    }
  }

  datatype Result<+T, +E> = Success(value: T) | Failure(error: E) {

    predicate IsFailure() {
      Failure?
    }

    function PropagateFailure<U>(): Result<U, E>
      requires Failure?
    {
      Failure(error)
    }

    function Extract(): T
      requires Success?
    {
      value
    }
  }
}
